=== FILE: README.md ===
# imdbapi scrape-and-cache core, modelled in Dafny

The service answers four questions about titles of a public movie catalog:
search by name, title details, full cast, and the episodes of one season. Every
answer is scraped from a catalog page and memoised in a document store
(cache-aside): a stored document answers without fetching; on a miss the page
is fetched, its fragments are normalised into a record, the record is stored
with `expiresAt = now + 604800` seconds, and returned.

The model keeps everything the service itself decides and abstracts what it
delegates:

- **Pages as fragments.** Each page is the list of fragments its CSS selectors
  pick out: link `href`s, image `src`s (an `Option`, since a missing attribute
  makes the source throw), texts, and the number of season options. Raw texts
  are trimmed inside the model exactly where the source calls `.trim()`.
- **String rules modelled exactly.** These are JavaScript's `trim` white-space
  set (`Text`) and the catalog-ID pattern `/\/title\/(tt\d+)\/\?/` with
  leftmost-match semantics (`TitleId`). Also the non-global, greedy rewrite
  `/UX.*\.jpg/ → "UX3000.jpg"`, where `.` stops at line terminators (`Poster`),
  and one-argument `parseInt`, covering white space, sign, the `0x` prefix and
  NaN (`Numbers`).
- **The store** (`Database`) is a map from (collection name, `_id`) to the
  stored document. `Insert` stamps `expiresAt` and refuses a duplicate `_id`,
  as the document store's `insertOne` does.
- **The operations** (`Search`) are pure state transitions. Each returns the
  value or the thrown error, the store afterwards, and the URLs it fetched. The
  web and the clock (integer seconds) are parameters. `Consistent` is the store
  invariant every operation keeps: each document sits under its own `_id` and
  has its collection's shape. It also covers non-empty cast and episode lists,
  well-shaped title records, and episode seasons of at least 1.

Points where the code is followed as written:

- The cast `character` is the first link of the character cell and
  `screentime` the second (`a:eq(0)`, `a:eq(1)`).
- A non-numeric episode subtext is stored as `NaN` (`Numbers.NaN`), not as an
  absent field.
- The search extracts an ID from every result link before taking the first
  five. So a bad link in sixth place still aborts the search.
- The ID pattern requires `/?` after the digits. `/title/tt123/` does not match.
- The tagline lookup reads an undefined variable on every miss. It therefore
  always fails after fetching and never stores anything (`Search.GetTaglines`).
- The store deletes documents itself. The index is created with
  `expireAfterSeconds: 604800` over a field that already holds
  `insert time + 604800`. Deletion therefore comes about 14 days after
  insertion, not 7. The model never deletes entries (see Left out).

## Model

| member | source | states |
|---|---|---|
| Text.Trim | src/search.js:39 | trimmed text neither starts nor ends with white space (what is cut is stated by Text.TrimCut) |
| Text.TrimTight | src/search.js:39 | text that neither starts nor ends with white space trims to itself |
| Text.TrimCut | src/search.js:39 | trim returns a slice of its input with only white space cut away on either side |
| Text.TrimPadded | src/search.js:39 | trimming a string with no white space at its ends, padded with white space, returns exactly that string |
| Text.TrimIdempotent | src/search.js:39 | trimming twice equals trimming once |
| Text.TrimEmptyIff | src/search.js:146 | a text trims to "" exactly when it is all white space, which is when the row test is falsy |
| TitleId.MatchAt | src/search.js:15 | the greedy `\d+` followed by `/?` has at most one way to match at a position, and MatchAt finds it |
| TitleId.FirstMatch | src/search.js:15 | the match found is the leftmost one; `None` means no position matches |
| TitleId.ExtractId | src/search.js:15 | an ID is captured iff the pattern occurs; the capture is the `tt` and digits of the leftmost match, so `tt` plus at least one digit, with `/title/<id>/?` in the link |
| TitleId.ExtractIdOfLink | src/search.js:15 | a result link `/title/<id>/?<rest>` yields its own ID back |
| TitleId.NoMatchWithoutQuestionMark | src/search.js:15 | `/title/tt123/`, lacking the `?`, has no match |
| Poster.LongestAt | src/search.js:40 | from a given `UX`, the match ends at the last `.jpg` before the next line terminator |
| Poster.FirstMatch | src/search.js:40 | the chosen match starts at the leftmost `UX` that has a `.jpg` after it on the same line |
| Poster.MaxResolution | src/search.js:40 | a URL with no match of `UX.*\.jpg` within one line is returned unchanged; otherwise the leftmost-longest match is replaced by `UX3000.jpg` and the rest kept |
| Poster.MatchIsChosen | src/search.js:40 | a URL in which `UX.*\.jpg` matches anywhere has a leftmost-longest match, so the rewrite is always one of the two cases `MaxResolution` states |
| Poster.SingleLineSpan | src/search.js:40 | on a URL without line breaks the replaced span runs from the first `UX` to the last `.jpg` |
| Poster.MaxResolutionIdempotent | src/search.js:116 | rewriting an already rewritten URL changes nothing |
| Numbers.ParseInt | src/search.js:50 | the result is NaN unless the first character after the leading white space and one optional sign is a decimal digit, so "x5", "Ep. 5" and "N/A" give NaN; what a numeral reads as is stated by Numbers.ParseIntDecimal, ParseIntLeadingZero, ParseIntSign and ParseIntSkipsSpace |
| Numbers.DigitRun | src/search.js:50 | parseInt reads the longest run of digits of its base, and nothing beyond it |
| Numbers.ParseIntDecimal | src/search.js:50 | parseInt of a decimal numeral followed by a non-digit returns that number; a lone `0` must not be followed by `x` or `X`, which would switch to base 16 |
| Numbers.ParseIntSkipsSpace | src/search.js:50 | white space in front of the text does not change what parseInt reads |
| Numbers.ParseIntSign | src/search.js:50 | a leading `-` negates the number read after it and a leading `+` keeps it; NaN stays NaN |
| Numbers.ParseIntNoDigits | src/search.js:50 | text in which no character is a decimal digit, including the "" of a missing subtext, parses to NaN |
| Numbers.ParseIntLeadingZero | src/search.js:50 | a `0` in front of a decimal numeral that does not start a `0x` prefix changes nothing: "0177" reads as "177" |
| Database.Find | src/database.js:14-18 | find returns the document stored under exactly that `_id` in that collection, and `None` otherwise |
| Database.Insert | src/database.js:20-26 | insert stamps `expiresAt = now + 604800` on the caller's document and adds it under its `_id` in that collection only; a duplicate `_id` is refused |
| Database.FindAfterInsert | src/database.js:14-26 | after an insert, find with the same `_id` and collection returns the stamped document |
| Database.InsertLeavesOthers | src/database.js:25 | an insert leaves every other (collection, `_id`) lookup unchanged |
| Database.CollectionsIndependent | src/database.js:15-25 | the same `_id` in two collections is two separate documents |
| Pages.ExtractIds | src/search.js:13-16 | one ID per result link, in document order; a link without an `href` or without a match fails the whole list |
| Pages.ExtractTitle | src/search.js:39-69 | the record fails only on a missing poster `src`. Type is Movie iff options − 2 ≤ 0, and then seasons and episodes are null. Otherwise seasons = options − 2 ≥ 1 and episodes = parseInt of the first subtext. The poster is the rewritten, trimmed `src` |
| Pages.TitleRecordNormal | src/search.js:39-53 | every text in a title record is trimmed, and its poster is already at maximum resolution, so rewriting it again changes nothing |
| Pages.TwoOptionsIsMovie | src/search.js:49-67 | two season options give a "Movie" with null seasons and episodes |
| Pages.FiveOptionsIsShow | src/search.js:49-67 | five season options and subtext "177" give a "TV show" with 3 seasons and 177 episodes |
| Pages.ToMember | src/search.js:147-152 | a kept row's name is its trimmed name text, its profile the link `href`, character and screentime the first and second character links |
| Pages.MissingLinksAreEmpty | src/search.js:150-151 | a missing character or screentime link gives "", not an error |
| Pages.Kept | src/search.js:145-146 | the kept rows are exactly the rows with a non-blank name, in increasing table order |
| Pages.ExtractCast | src/search.js:144-154 | the cast list holds one member per kept row, in table order, each with a non-empty trimmed name |
| Pages.CastEmptyIff | src/search.js:146-155 | the cast list is empty exactly when every row's name is blank |
| Pages.ToEpisode | src/search.js:113-119 | an episode's image is the rewritten, untrimmed `src`; its date and rating are the first and second spans, "" when absent |
| Pages.ExtractEpisodes | src/search.js:111-120 | one episode per card, in page order; one card without an image `src` fails the list |
| Pages.EpisodeImagesStable | src/search.js:116 | every extracted episode image is a fixed point of the rewrite |
| Search.GetInfo | src/search.js:33-77 | a hit returns the stored `.data` with no fetch and no insert. A miss fetches once. On success it stores the extracted record under the same key, stamped `now + 604800`, exactly once. Every failure is "Invalid imdb_id" and stores nothing |
| Search.InfoRepeatIsCached | src/search.js:35-36 | after a successful lookup, the next lookup returns the same record from the store with zero fetches, whatever the page now says |
| Search.InfoAll | src/search.js:22-24 | the fan-out returns one record per ID, in ID order, duplicates kept, each carrying its own ID; its only error is "Invalid imdb_id"; it only adds title documents and fetches only the IDs' title pages, no more fetches than IDs |
| Search.InfoAllRecordsStored | src/search.js:22-26 | after a successful fan-out, the record at position k is the one stored under the k-th ID |
| Search.InfoAllSuccessIff | src/search.js:22-24 | the fan-out succeeds exactly when every ID is already stored or has a page with a poster image, judged on the store it starts with |
| Search.InfoAllFromPages | src/search.js:22-72 | every document the fan-out adds is stored under the ID of one of its lookups, holds the record extracted from that ID's own title page, and is stamped `expiresAt = now + 604800` |
| Search.InfoAllAddsOnly | src/search.js:22-24 | the fan-out adds title documents only under the IDs it looked up |
| Search.InfoAllRecordContents | src/search.js:22-72 | on success, the k-th record is the stored document's `.data` when the k-th ID was cached at the start, and otherwise the record extracted from that ID's title page, now stored stamped `expiresAt = now + 604800` |
| Search.SearchTitles | src/search.js:6-31 | the search page is fetched first. A failed fetch, a bad link or zero links fail without touching the store. A success returns min(5, n) records, the k-th carrying the k-th ID of the page; at most 5 further fetches, all title pages of those IDs |
| Search.SearchRunsFanOut | src/search.js:18-26 | once the page lists at least one ID, the search's result and store are exactly those of the fan-out over the first min(5, n) IDs, and its fetches are the search page followed by the fan-out's |
| Search.SearchSuccessIff | src/search.js:18-26 | a search whose page parsed succeeds exactly when it lists at least one ID and each of the first five is already stored or has a page with a poster image |
| Search.SearchRecordsStored | src/search.js:22-26 | each record a search returns is the one stored, afterwards, under the ID at the same position of the page |
| Search.SearchRecordContents | src/search.js:22-72 | the k-th record of a successful search is the stored `.data` when the k-th ID of the page was cached, and otherwise the record extracted from that ID's title page, now stored stamped `expiresAt = now + 604800` |
| Search.SearchAddsOnly | src/search.js:22-24 | a search that changes the store adds title documents only under the first five IDs of its page |
| Search.FailingTitleStaysOut | src/search.js:71-75 | a title whose lookup fails never enters the store, whatever other lookups of the fan-out do |
| Search.OneFailureFailsAll | src/search.js:22-24 | one uncached ID whose lookup fails makes the whole fan-out fail |
| Search.SearchFailsOnAnyFailure | src/search.js:18-24 | a search whose first five IDs include an uncached, failing title fails as a whole |
| Search.GetCast | src/search.js:134-163 | a hit returns the stored document as it is, with no fetch. A miss fetches once. A failed fetch or an empty cast fails and stores nothing. Otherwise the stamped document is stored under the same key and returned, and nothing else is added |
| Search.CastRepeatIsCached | src/search.js:136-137 | a second cast lookup returns the very document the first stored, `expiresAt` included, without fetching |
| Search.GetEpisodes | src/search.js:100-132 | a hit returns the stored document. A miss with season ≤ 0 fails before any fetch. Otherwise it fetches once; a missing image, a failed fetch or no episodes fail without storing. Success stores the stamped document under `{imdb_id, season}` and adds nothing else |
| Search.NonPositiveSeasonRejected | src/search.js:102-105 | on a consistent store, whose episode documents all have season ≥ 1, a season ≤ 0 is always rejected with no fetch and the store unchanged |
| Search.EpisodesRepeatIsCached | src/search.js:102-103 | a second lookup of the same season returns the stored document without fetching |
| Search.GetTaglines | src/search.js:79-98 | a hit returns the stored document; every miss fetches once and then fails, leaving the store unchanged |
| Search.ShowLookupScenario | src/search.js:33-72 | a first lookup of a show with 13 selector options and subtext "177" fetches once. It yields 11 seasons and 177 episodes and stores the record stamped `expiresAt = now + 604800`. A lookup six days later returns the same record without fetching |

## Left out

- The web-server layer (routing, the 404 mapping, CORS, favicon, timing) and the static documentation page. Neither has logic of its own.
- HTTP fetching and HTML selector evaluation: pages are a parameter that gives, per URL, the selected fragments or a failed request. `.text()` over several matched elements is one fragment string. The fixed request headers are not modelled.
- Database connection, index creation, and the store's own deletion of expired documents. The model never deletes an entry. Deletion belongs to the store and happens once its clock passes `expiresAt + 604800`.
- Store failures other than a duplicate `_id` (network, authentication) are not modelled.
- Concurrency: the search fan-out runs its lookups one after another on the threaded store. When two concurrent lookups of the same uncached ID both insert, the second insert is refused and the search fails. In the model, the second lookup is answered from the store instead.
- Search.InfoAll: states that every fetched URL is the title URL of one of the IDs and that there are at most as many fetches as IDs. It does not state exactly which IDs missed the cache at their turn, because that depends on which earlier lookups stored the same ID.
- Search.GetInfo: one `now` per operation stands for the insertion time; the source reads the clock inside the insert.
- JavaScript coercions: the season arrives as a query string that is compared with `<= 0` and used, as a string, inside the `_id`. The model takes an integer season.
- Database.Insert: the clock is an integer count of seconds, and the stamp is always the insertion time plus 604800. The source adds the week with `setSeconds` in the server's local time, so across a daylight-saving change its stamp is off by the shift (usually an hour). The model assumes a clock without such shifts, as on a server running in UTC.
- Numbers.ParseInt: results are exact integers. Rounding above 2^53 and the sign of `-0` are not modelled, and neither is how NaN is written to JSON.
- Logging of errors.

=== FILE: database.dfy ===
/**
 * The document store behind the cache: `find(id, collection)` and
 * `insert(doc, collection)`. The store is a map from (collection name, `_id`)
 * to the stored document; the clock is an integer number of seconds supplied
 * by the caller.
 */
module Database {
  import opened Wrappers

  /** Seconds added to the insertion time to give a document's `expiresAt` stamp. */
  const Ttl: int := 604800

  /** A document `_id`: a catalog ID, or the `{imdb_id, season}` object used for episode lists. */
  datatype Key = Id(id: string) | IdSeason(id: string, season: int)

  /** A document as a caller builds it, before insertion. */
  datatype Doc<T> = Doc(id: Key, body: T)

  /** A document as stored: the caller's document plus its `expiresAt` stamp. */
  datatype Stored<T> = Stored(id: Key, body: T, expiresAt: int)

  /** The database: every collection, each a map from `_id` to document. */
  type Db<T> = map<(string, Key), Stored<T>>

  /** The document store refuses a second document with an `_id` already present. */
  datatype DbError = DuplicateKey(collection: string, key: Key)

  /** The stored document with exactly this `_id` in this collection, or `None` (the source's `false`). */
  function Find<T>(db: Db<T>, key: Key, collection: string): (r: Option<Stored<T>>)
    ensures r.Some? <==> (collection, key) in db
    ensures r.Some? ==> r.value == db[(collection, key)]
  {
    if (collection, key) in db then Some(db[(collection, key)]) else None
  }

  /**
   * Stamps `doc` with `expiresAt = now + Ttl` and adds it under its own `_id`
   * in `collection`. Returns the new database and the stamped document, which
   * is what the caller's own object has become.
   */
  function Insert<T>(db: Db<T>, doc: Doc<T>, collection: string, now: int): (r: Result<(Db<T>, Stored<T>), DbError>)
    ensures r.Success? <==> (collection, doc.id) !in db
    ensures r.Failure? ==> r.error == DuplicateKey(collection, doc.id)
    ensures r.Success? ==> var (db', stamped) := r.value;
      && stamped.id == doc.id && stamped.body == doc.body && stamped.expiresAt == now + Ttl
      && db'.Keys == db.Keys + {(collection, doc.id)}
      && db'[(collection, doc.id)] == stamped
      && forall p :: p in db && p != (collection, doc.id) ==> db'[p] == db[p]
  {
    if (collection, doc.id) in db then Failure(DuplicateKey(collection, doc.id))
    else
      var stamped := Stored(doc.id, doc.body, now + Ttl);
      Success((db[(collection, doc.id) := stamped], stamped))
  }

  /** A document just inserted is found again under the same `_id` and collection, stamped. */
  lemma FindAfterInsert<T>(db: Db<T>, doc: Doc<T>, collection: string, now: int)
    requires (collection, doc.id) !in db
    ensures Insert(db, doc, collection, now).Success?
    ensures Find(Insert(db, doc, collection, now).value.0, doc.id, collection)
         == Some(Stored(doc.id, doc.body, now + Ttl))
  {
  }

  /** Inserting leaves every other (collection, `_id`) lookup as it was. */
  lemma InsertLeavesOthers<T>(db: Db<T>, doc: Doc<T>, collection: string, now: int, key: Key, other: string)
    requires Insert(db, doc, collection, now).Success?
    requires (other, key) != (collection, doc.id)
    ensures Find(Insert(db, doc, collection, now).value.0, key, other) == Find(db, key, other)
  {
  }

  /** Collections are separate namespaces: the same `_id` in two collections is two documents. */
  lemma CollectionsIndependent<T>(db: Db<T>, a: Doc<T>, b: Doc<T>, ca: string, cb: string, now: int)
    requires a.id == b.id && ca != cb
    requires (ca, a.id) !in db && (cb, b.id) !in db
    ensures Insert(db, a, ca, now).Success?
    ensures Insert(Insert(db, a, ca, now).value.0, b, cb, now).Success?
    ensures var db2 := Insert(Insert(db, a, ca, now).value.0, b, cb, now).value.0;
      && |db2| == |db| + 2
      && Find(db2, a.id, ca) == Some(Stored(a.id, a.body, now + Ttl))
      && Find(db2, b.id, cb) == Some(Stored(b.id, b.body, now + Ttl))
  {
    var db1 := Insert(db, a, ca, now).value.0;
    var db2 := Insert(db1, b, cb, now).value.0;
    assert db1.Keys == db.Keys + {(ca, a.id)};
    assert db2.Keys == db1.Keys + {(cb, b.id)};
    assert |db1.Keys| == |db.Keys| + 1;
    assert |db2.Keys| == |db1.Keys| + 1;
  }
}

=== FILE: numbers.dfy ===
/**
 * JavaScript's one-argument `parseInt` (section 19.2.5 of ECMA-262) on integer
 * values: leading white space is skipped, one sign is accepted, a `0x`/`0X`
 * prefix selects base 16, and the longest run of digits of that base is read;
 * no digit at all gives NaN. Also the decimal rendering of a number, which is
 * what the scraped episode count is expected to hold.
 */
module Numbers {
  import Text

  /** The JavaScript numbers `parseInt` can produce, on the integer scale. */
  datatype JsNumber = NaN | Num(value: int)

  /** Value of `c` as a digit in base `radix` (10 or 16), or -1 when it is not one. */
  function DigitValue(c: char, radix: nat): (v: int)
    ensures -1 <= v < radix
  {
    if Text.IsDigit(c) && (c as int) - ('0' as int) < radix then (c as int) - ('0' as int)
    else if radix == 16 && 'a' <= c <= 'f' then (c as int) - ('a' as int) + 10
    else if radix == 16 && 'A' <= c <= 'F' then (c as int) - ('A' as int) + 10
    else -1
  }

  predicate IsDigitOf(c: char, radix: nat) {
    DigitValue(c, radix) >= 0
  }

  /** Length of the longest prefix of `s` made of base-`radix` digits. */
  function DigitRun(s: string, radix: nat): (n: nat)
    ensures n <= |s|
    ensures forall k :: 0 <= k < n ==> IsDigitOf(s[k], radix)
    ensures n == |s| || !IsDigitOf(s[n], radix)
  {
    if |s| > 0 && IsDigitOf(s[0], radix) then 1 + DigitRun(s[1..], radix) else 0
  }

  /** The number a string of base-`radix` digits denotes, most significant first. */
  function Value(d: string, radix: nat): int
    requires forall k :: 0 <= k < |d| ==> IsDigitOf(d[k], radix)
  {
    if d == [] then 0
    else Value(d[..|d| - 1], radix) * radix + DigitValue(d[|d| - 1], radix)
  }

  /** Whether `u` starts with the `0x`/`0X` prefix that selects base 16. */
  predicate HexPrefixed(u: string) {
    |u| >= 2 && u[0] == '0' && (u[1] == 'x' || u[1] == 'X')
  }

  /** `t` without its one leading `-` or `+`, if it has one. */
  function Unsigned(t: string): (u: string)
    ensures u == t || (|t| > 0 && t[0] in "-+" && u == t[1..])
  {
    if |t| > 0 && (t[0] == '-' || t[0] == '+') then t[1..] else t
  }

  /**
   * `parseInt(s)` with no radix argument: leading white space is skipped, then
   * a signed numeral is read. A number comes out only when the character after
   * the white space and the one optional sign is a decimal digit.
   */
  function ParseInt(s: string): (r: JsNumber)
    ensures var u := Unsigned(Text.TrimStart(s)); (u == [] || !Text.IsDigit(u[0])) ==> r == NaN
    ensures r.Num? ==> exists k :: 0 <= k < |s| && Text.IsDigit(s[k])
  {
    Text.TrimStartFacts(s);
    ParseSigned(Text.TrimStart(s))
  }

  /** An optional `-` or `+`, then an unsigned numeral. */
  function ParseSigned(t: string): (r: JsNumber)
    ensures r.Num? ==> var u := Unsigned(t); |u| > 0 && Text.IsDigit(u[0])
  {
    if |t| > 0 && t[0] == '-' then Negate(ParseUnsigned(t[1..]))
    else if |t| > 0 && t[0] == '+' then ParseUnsigned(t[1..])
    else ParseUnsigned(t)
  }

  /** A `0x`/`0X` prefix selects base 16, otherwise base 10; the longest run of digits of that base is read, and none gives NaN. */
  function ParseUnsigned(u: string): (r: JsNumber)
    ensures r.Num? ==> |u| > 0 && Text.IsDigit(u[0])
  {
    var radix := if HexPrefixed(u) then 16 else 10;
    var body := if HexPrefixed(u) then u[2..] else u;
    var n := DigitRun(body, radix);
    if n == 0 then NaN
    else Num(Value(body[..n], radix))
  }

  /** The number with its sign flipped; NaN stays NaN. */
  function Negate(x: JsNumber): (r: JsNumber)
    ensures r.NaN? <==> x.NaN?
    ensures r.Num? ==> r.value == -x.value
  {
    match x
    case NaN => NaN
    case Num(v) => Num(-v)
  }

  /** The decimal digit for `d`. */
  function DigitChar(d: nat): (c: char)
    requires d < 10
    ensures DigitValue(c, 10) == d
  {
    (('0' as int) + d) as char
  }

  /** The shortest decimal rendering of `n`, as `String(n)` gives it. */
  function Decimal(n: nat): (s: string)
    ensures |s| > 0
    ensures forall k :: 0 <= k < |s| ==> IsDigitOf(s[k], 10)
    ensures s[0] == '0' ==> n == 0
  {
    if n < 10 then [DigitChar(n)] else Decimal(n / 10) + [DigitChar(n % 10)]
  }

  /** Reading back a decimal rendering gives the number. */
  lemma {:induction false} ValueOfDecimal(n: nat)
    ensures Value(Decimal(n), 10) == n
  {
    if n >= 10 {
      var d := Decimal(n);
      assert d[..|d| - 1] == Decimal(n / 10);
      ValueOfDecimal(n / 10);
    }
  }

  /** The digit run of digits followed by a non-digit is exactly those digits. */
  lemma {:induction false} DigitRunOfDigits(d: string, rest: string, radix: nat)
    requires forall k :: 0 <= k < |d| ==> IsDigitOf(d[k], radix)
    requires rest == [] || !IsDigitOf(rest[0], radix)
    ensures DigitRun(d + rest, radix) == |d|
    decreases |d|
  {
    if d == [] {
      assert d + rest == rest;
    } else {
      assert (d + rest)[1..] == d[1..] + rest;
      DigitRunOfDigits(d[1..], rest, radix);
    }
  }

  /**
   * `parseInt` of a decimal rendering followed by text that does not continue
   * it gives the number back. The extra condition for 0 is JavaScript's: in
   * "0x..." the `0x` is read as the hexadecimal prefix.
   */
  lemma ParseIntDecimal(n: nat, rest: string)
    requires rest == [] || !IsDigitOf(rest[0], 10)
    requires n == 0 ==> rest == [] || (rest[0] != 'x' && rest[0] != 'X')
    ensures ParseInt(Decimal(n) + rest) == Num(n)
  {
    var s := Decimal(n) + rest;
    assert !Text.IsSpace(s[0]) && s[0] != '-' && s[0] != '+';
    assert Text.TrimStart(s) == s;
    assert !HexPrefixed(s);
    DigitRunOfDigits(Decimal(n), rest, 10);
    assert s[..|Decimal(n)|] == Decimal(n);
    ValueOfDecimal(n);
  }

  /** White space in front changes nothing: `parseInt(" \t42")` is `parseInt("42")`. */
  lemma ParseIntSkipsSpace(ws: string, s: string)
    requires Text.AllSpace(ws)
    ensures ParseInt(ws + s) == ParseInt(s)
  {
    Text.TrimStartSkips(ws, s);
  }

  /** A leading `-` negates what follows and a leading `+` keeps it. */
  lemma ParseIntSign(u: string)
    requires u == [] || (!Text.IsSpace(u[0]) && u[0] != '-' && u[0] != '+')
    ensures ParseInt("-" + u) == Negate(ParseInt(u))
    ensures ParseInt("+" + u) == ParseInt(u)
  {
    assert ("-" + u)[1..] == u;
    assert ("+" + u)[1..] == u;
  }

  /** A leading zero in front of a decimal numeral changes nothing: `parseInt("0177")` is `parseInt("177")`. */
  lemma ParseIntLeadingZero(s: string)
    requires |s| > 0 && Text.IsDigit(s[0]) && !HexPrefixed(s)
    ensures ParseInt("0" + s) == ParseInt(s)
  {
    var z := "0" + s;
    assert !Text.IsSpace(z[0]) && !Text.IsSpace(s[0]);
    assert Text.TrimStart(z) == z && Text.TrimStart(s) == s;
    assert ParseInt(z) == ParseUnsigned(z) && ParseInt(s) == ParseUnsigned(s);
    UnsignedLeadingZero(s);
  }

  /** The unsigned step of `ParseIntLeadingZero`: the zero joins the digit run and adds nothing to its value. */
  lemma UnsignedLeadingZero(s: string)
    requires |s| > 0 && Text.IsDigit(s[0]) && !HexPrefixed(s)
    ensures ParseUnsigned("0" + s) == ParseUnsigned(s)
  {
    var z := "0" + s;
    assert !HexPrefixed(z);
    assert z[1..] == s;
    var n := DigitRun(s, 10);
    assert DigitRun(z, 10) == 1 + n;
    assert z[..1 + n] == "0" + s[..n];
    ValueLeadingZero(s[..n]);
  }

  /** A leading zero digit does not change a decimal value. */
  lemma {:induction false} ValueLeadingZero(d: string)
    requires forall k :: 0 <= k < |d| ==> IsDigitOf(d[k], 10)
    ensures Value("0" + d, 10) == Value(d, 10)
  {
    if d != [] {
      var z := "0" + d;
      assert z[..|z| - 1] == "0" + d[..|d| - 1];
      assert z[|z| - 1] == d[|d| - 1];
      ValueLeadingZero(d[..|d| - 1]);
    }
  }

  /** Text with no decimal digit anywhere is NaN, as is the empty text of a missing element. */
  lemma ParseIntNoDigits(s: string)
    requires forall k :: 0 <= k < |s| ==> !Text.IsDigit(s[k])
    ensures ParseInt(s) == NaN
  {
  }
}

=== FILE: pages.dfy ===
/**
 * The scraped pages, each reduced to the fragments its CSS selectors pick
 * out (selector evaluation itself is the HTML library's and is not modelled),
 * and the extractors that turn those fragments into records. A fragment that
 * the source reads with `.attr(...)` is an `Option`: when it is missing, the
 * source goes on to call a string method on `undefined` and throws a
 * `TypeError`, which the extractors report as `None`.
 */
module Pages {
  import opened Wrappers
  import Text
  import TitleId
  import Poster
  import Numbers

  /** `.eq(k).text()` on a selection: the k-th element's text, or "" when there is none. */
  function TextAt(texts: seq<string>, k: nat): (t: string)
    ensures k < |texts| ==> t == texts[k]
    ensures k >= |texts| ==> t == ""
  {
    if k < |texts| then texts[k] else ""
  }

  /** Each text trimmed, in order (`.map(... .text().trim()).get()`). */
  function TrimAll(texts: seq<string>): (r: seq<string>)
    ensures |r| == |texts|
    ensures forall k :: 0 <= k < |r| ==> r[k] == Text.Trim(texts[k])
  {
    seq(|texts|, k requires 0 <= k < |texts| => Text.Trim(texts[k]))
  }

  // ---------------------------------------------------------------- search

  /** The search-results page: the `href` of every result-title link, in document order. */
  datatype SearchPage = SearchPage(hrefs: seq<Option<string>>)

  /** The catalog ID of every result link, in order; `None` when any link has no `href` or does not match. */
  function ExtractIds(hrefs: seq<Option<string>>): (r: Option<seq<string>>)
    ensures r.Some? <==> forall k :: 0 <= k < |hrefs| ==> hrefs[k].Some? && TitleId.ExtractId(hrefs[k].value).Some?
    ensures r.Some? ==> |r.value| == |hrefs|
    ensures r.Some? ==> forall k :: 0 <= k < |hrefs| ==> TitleId.ExtractId(hrefs[k].value) == Some(r.value[k])
    ensures r.Some? ==> forall k :: 0 <= k < |hrefs| ==> TitleId.IsCatalogId(r.value[k])
  {
    if hrefs == [] then Some([])
    else if hrefs[0].None? then None
    else
      match TitleId.ExtractId(hrefs[0].value)
      case None => None
      case Some(id) =>
        match ExtractIds(hrefs[1..])
        case None => None
        case Some(rest) => Some([id] + rest)
  }

  // ---------------------------------------------------------------- title

  /** The title-detail page, as fragments. */
  datatype TitlePage = TitlePage(
    heroText: string,            // text of the primary heading
    imageSrc: Option<string>,    // `src` of the first poster image
    genreTexts: seq<string>,     // each genre chip
    producerTexts: seq<string>,  // each link in the block after "Production companies"
    ratingText: string,          // text of the first aggregate-rating score
    creatorTexts: seq<string>,   // each metadata-list link
    seasonOptions: nat,          // number of options in the season selector
    subtexts: seq<string>,       // each title subtext
    contentTexts: seq<string>)   // each inner content block

  datatype MediaType = Movie | TVShow

  /** The `type` string of the stored record. */
  function TypeLabel(m: MediaType): string {
    match m
    case Movie => "Movie"
    case TVShow => "TV show"
  }

  /** The `data` part of a title document. `None` in `seasons`/`episodes` is JSON null. */
  datatype TitleData = TitleData(
    imdbId: string,
    title: string,
    mediaType: MediaType,
    poster: string,
    storyline: seq<string>,
    genres: seq<string>,
    creator: string,
    producers: seq<string>,
    seasons: Option<int>,
    episodes: Option<Numbers.JsNumber>,
    rating: string)

  /** The shape every title record has: a TV show has at least one season and an episode field; a movie has neither. */
  predicate WellShaped(d: TitleData) {
    && (d.mediaType == TVShow <==> d.seasons.Some?)
    && (d.seasons.Some? ==> d.seasons.value >= 1)
    && (d.episodes.Some? <==> d.seasons.Some?)
  }

  /** Number of seasons the selector announces: it always carries two options that are not seasons. */
  function SeasonCount(options: nat): int {
    options - 2
  }

  /** The title record for `id`; `None` when the page has no poster image `src`. */
  function ExtractTitle(id: string, page: TitlePage): (r: Option<TitleData>)
    ensures r.Some? <==> page.imageSrc.Some?
    ensures r.Some? ==> WellShaped(r.value) && r.value.imdbId == id
    ensures r.Some? ==> (r.value.mediaType == Movie <==> SeasonCount(page.seasonOptions) <= 0)
    ensures r.Some? && r.value.mediaType == TVShow ==>
      && r.value.seasons == Some(SeasonCount(page.seasonOptions))
      && r.value.episodes == Some(Numbers.ParseInt(Text.Trim(TextAt(page.subtexts, 0))))
    ensures r.Some? ==> r.value.poster == Poster.MaxResolution(Text.Trim(page.imageSrc.value))
    ensures r.Some? ==> r.value.title == Text.Trim(page.heroText) && r.value.rating == Text.Trim(page.ratingText)
    ensures r.Some? ==> r.value.creator == Text.Trim(TextAt(page.creatorTexts, 0))
    ensures r.Some? ==> r.value.genres == TrimAll(page.genreTexts) && r.value.producers == TrimAll(page.producerTexts)
    ensures r.Some? ==> r.value.storyline == TrimAll(page.contentTexts)
  {
    var src :- page.imageSrc;
    var seasons := SeasonCount(page.seasonOptions);
    var episodes := Numbers.ParseInt(Text.Trim(TextAt(page.subtexts, 0)));
    Some(TitleData(
      imdbId := id,
      title := Text.Trim(page.heroText),
      mediaType := if seasons <= 0 then Movie else TVShow,
      poster := Poster.MaxResolution(Text.Trim(src)),
      storyline := TrimAll(page.contentTexts),
      genres := TrimAll(page.genreTexts),
      creator := Text.Trim(TextAt(page.creatorTexts, 0)),
      producers := TrimAll(page.producerTexts),
      seasons := if seasons <= 0 then None else Some(seasons),
      episodes := if seasons <= 0 then None else Some(episodes),
      rating := Text.Trim(page.ratingText)))
  }

  /** Every text of a title record is trimmed, and its poster is already at maximum resolution. */
  lemma TitleRecordNormal(id: string, page: TitlePage)
    requires ExtractTitle(id, page).Some?
    ensures var d := ExtractTitle(id, page).value;
      && Text.Tight(d.title) && Text.Tight(d.rating) && Text.Tight(d.creator)
      && (forall k :: 0 <= k < |d.genres| ==> Text.Tight(d.genres[k]))
      && (forall k :: 0 <= k < |d.producers| ==> Text.Tight(d.producers[k]))
      && (forall k :: 0 <= k < |d.storyline| ==> Text.Tight(d.storyline[k]))
      && Poster.MaxResolution(d.poster) == d.poster
  {
    Poster.MaxResolutionIdempotent(Text.Trim(page.imageSrc.value));
  }

  // ---------------------------------------------------------------- cast

  /** One row of the full-credits table. */
  datatype CastRow = CastRow(
    nameText: string,              // text of the links in the name cell
    profileHref: Option<string>,   // `href` of the first link in the name cell
    characterTexts: seq<string>)   // each link in the character cell

  datatype CastMember = CastMember(name: string, profile: Option<string>, character: string, screentime: string)

  /** A row is kept when its trimmed name is non-empty (a truthy JavaScript string). */
  predicate Qualifies(row: CastRow) {
    Text.Trim(row.nameText) != []
  }

  /** The record a kept row becomes: character from the first link, screentime from the second. */
  function ToMember(row: CastRow): (m: CastMember)
    ensures m.name == Text.Trim(row.nameText) && m.profile == row.profileHref
    ensures |row.characterTexts| >= 1 ==> m.character == Text.Trim(row.characterTexts[0])
    ensures |row.characterTexts| >= 2 ==> m.screentime == Text.Trim(row.characterTexts[1])
  {
    CastMember(
      Text.Trim(row.nameText),
      row.profileHref,
      Text.Trim(TextAt(row.characterTexts, 0)),
      Text.Trim(TextAt(row.characterTexts, 1)))
  }

  /** A missing character or screentime link gives an empty string, not an error. */
  lemma MissingLinksAreEmpty(row: CastRow)
    ensures |row.characterTexts| == 0 ==> ToMember(row).character == ""
    ensures |row.characterTexts| <= 1 ==> ToMember(row).screentime == ""
  {
  }

  /** The indices of the kept rows from `from` on, in table order. */
  function KeptFrom(rows: seq<CastRow>, from: nat): (ks: seq<nat>)
    requires from <= |rows|
    ensures forall k :: 0 <= k < |ks| ==> from <= ks[k] < |rows| && Qualifies(rows[ks[k]])
    ensures forall a, b :: 0 <= a < b < |ks| ==> ks[a] < ks[b]
    ensures forall i :: from <= i < |rows| && Qualifies(rows[i]) ==> i in ks
    decreases |rows| - from
  {
    if from == |rows| then []
    else if Qualifies(rows[from]) then [from] + KeptFrom(rows, from + 1)
    else KeptFrom(rows, from + 1)
  }

  /** The indices of the kept rows: exactly those with a non-blank name, in table order. */
  function Kept(rows: seq<CastRow>): (ks: seq<nat>)
    ensures forall k :: 0 <= k < |ks| ==> ks[k] < |rows| && Qualifies(rows[ks[k]])
    ensures forall a, b :: 0 <= a < b < |ks| ==> ks[a] < ks[b]
    ensures forall i :: 0 <= i < |rows| && Qualifies(rows[i]) ==> i in ks
  {
    KeptFrom(rows, 0)
  }

  /** The members of the kept rows from `from` on, in table order. */
  function CastFrom(rows: seq<CastRow>, from: nat): (r: seq<CastMember>)
    requires from <= |rows|
    ensures |r| == |KeptFrom(rows, from)|
    ensures forall k :: 0 <= k < |r| ==> r[k] == ToMember(rows[KeptFrom(rows, from)[k]])
    decreases |rows| - from
  {
    if from == |rows| then []
    else if Qualifies(rows[from]) then [ToMember(rows[from])] + CastFrom(rows, from + 1)
    else CastFrom(rows, from + 1)
  }

  /** The cast list: one member per kept row, in table order. */
  function ExtractCast(rows: seq<CastRow>): (r: seq<CastMember>)
    ensures |r| == |Kept(rows)|
    ensures forall k :: 0 <= k < |r| ==> r[k] == ToMember(rows[Kept(rows)[k]])
    ensures forall k :: 0 <= k < |r| ==> r[k].name != [] && Text.Tight(r[k].name)
  {
    CastFrom(rows, 0)
  }

  /** The cast list is empty exactly when no row has a non-blank name. */
  lemma CastEmptyIff(rows: seq<CastRow>)
    ensures ExtractCast(rows) == [] <==> forall i :: 0 <= i < |rows| ==> Text.AllSpace(rows[i].nameText)
  {
    forall i | 0 <= i < |rows| {
      Text.TrimEmptyIff(rows[i].nameText);
    }
    if ExtractCast(rows) == [] {
      forall i | 0 <= i < |rows| ensures Text.AllSpace(rows[i].nameText) {
      }
    } else {
      assert Qualifies(rows[Kept(rows)[0]]);
    }
  }

  // ---------------------------------------------------------------- episodes

  /** One episode card of a season's episode list. */
  datatype Article = Article(
    titleText: string,          // text of the card title
    overviewText: string,       // text of the inner content block
    imageSrc: Option<string>,   // `src` of the first image
    spanTexts: seq<string>)     // each span, in order

  datatype Episode = Episode(episode: string, overview: string, image: string, date: string, rating: string)

  /** The record of a card: the image is rewritten without trimming, the date and rating are its first two spans. */
  function ToEpisode(a: Article): (e: Episode)
    requires a.imageSrc.Some?
    ensures e.image == Poster.MaxResolution(a.imageSrc.value)
    ensures e.episode == Text.Trim(a.titleText) && e.overview == Text.Trim(a.overviewText)
    ensures e.date == Text.Trim(TextAt(a.spanTexts, 0)) && e.rating == Text.Trim(TextAt(a.spanTexts, 1))
  {
    Episode(
      Text.Trim(a.titleText),
      Text.Trim(a.overviewText),
      Poster.MaxResolution(a.imageSrc.value),
      Text.Trim(TextAt(a.spanTexts, 0)),
      Text.Trim(TextAt(a.spanTexts, 1)))
  }

  /** One episode per card, in page order; `None` when any card has no image `src`. */
  function ExtractEpisodes(articles: seq<Article>): (r: Option<seq<Episode>>)
    ensures r.Some? <==> forall k :: 0 <= k < |articles| ==> articles[k].imageSrc.Some?
    ensures r.Some? ==> |r.value| == |articles|
    ensures r.Some? ==> forall k :: 0 <= k < |articles| ==> r.value[k] == ToEpisode(articles[k])
  {
    if articles == [] then Some([])
    else if articles[0].imageSrc.None? then None
    else
      match ExtractEpisodes(articles[1..])
      case None => None
      case Some(rest) => Some([ToEpisode(articles[0])] + rest)
  }

  /** Every extracted episode image is already at maximum resolution: rewriting it again changes nothing. */
  lemma EpisodeImagesStable(articles: seq<Article>)
    requires ExtractEpisodes(articles).Some?
    ensures forall e :: e in ExtractEpisodes(articles).value ==> Poster.MaxResolution(e.image) == e.image
  {
    forall e | e in ExtractEpisodes(articles).value
      ensures Poster.MaxResolution(e.image) == e.image
    {
      var k :| 0 <= k < |articles| && ExtractEpisodes(articles).value[k] == e;
      Poster.MaxResolutionIdempotent(articles[k].imageSrc.value);
    }
  }

  // ---------------------------------------------------------------- examples

  /** A selector with exactly the two sentinel options is a movie with no season or episode count. */
  lemma TwoOptionsIsMovie(id: string, page: TitlePage)
    requires page.imageSrc.Some? && page.seasonOptions == 2
    ensures ExtractTitle(id, page).Some?
    ensures var d := ExtractTitle(id, page).value;
      d.mediaType == Movie && TypeLabel(d.mediaType) == "Movie" && d.seasons == None && d.episodes == None
  {
  }

  /** Five options announce three seasons; a subtext of "177" gives 177 episodes. */
  lemma FiveOptionsIsShow(id: string, page: TitlePage)
    requires page.imageSrc.Some? && page.seasonOptions == 5 && page.subtexts == ["177"]
    ensures ExtractTitle(id, page).Some?
    ensures var d := ExtractTitle(id, page).value;
      && d.mediaType == TVShow && TypeLabel(d.mediaType) == "TV show"
      && d.seasons == Some(3) && d.episodes == Some(Numbers.Num(177))
  {
    Text.TrimTight("177");
    assert Numbers.Decimal(177) == "177";
    Numbers.ParseIntDecimal(177, []);
    assert Numbers.Decimal(177) + [] == "177";
  }
}

=== FILE: poster.dfy ===
/**
 * The image-resolution rewrite `url.replace(/UX.*\.jpg/, "UX3000.jpg")`.
 * The expression is not global, so only the leftmost match is replaced; `.*`
 * is greedy, so the match runs from that `UX` to the last `.jpg` on the same
 * line (`.` does not match a line terminator).
 */
module Poster {
  import opened Wrappers

  /** What the match is replaced with. */
  const Replacement: string := "UX3000.jpg"

  /** The characters JavaScript's `.` refuses to match. */
  predicate IsLineTerminator(c: char) {
    c == '\n' || c == '\r' || c == '\U{2028}' || c == '\U{2029}'
  }

  /** No line terminator in `s[a..b]`. */
  ghost predicate SameLine(s: string, a: int, b: int) {
    0 <= a <= b <= |s| && forall k :: a <= k < b ==> !IsLineTerminator(s[k])
  }

  ghost predicate UxAt(s: string, i: int) {
    0 <= i && i + 2 <= |s| && s[i] == 'U' && s[i + 1] == 'X'
  }

  ghost predicate JpgAt(s: string, j: int) {
    0 <= j && j + 4 <= |s| && s[j] == '.' && s[j + 1] == 'j' && s[j + 2] == 'p' && s[j + 3] == 'g'
  }

  /** `/UX.*\.jpg/` matches `s[i..j + 4]`. */
  ghost predicate Matches(s: string, i: int, j: int) {
    UxAt(s, i) && i + 2 <= j && JpgAt(s, j) && SameLine(s, i + 2, j)
  }

  /** The match a JavaScript regular-expression search picks: leftmost start, then the longest `.*`. */
  ghost predicate Chosen(s: string, i: int, j: int) {
    && Matches(s, i, j)
    && (forall j' :: Matches(s, i, j') ==> j' <= j)
    && (forall i', j' :: 0 <= i' < i ==> !Matches(s, i', j'))
  }

  /** The first line terminator at or after `k`, or the end of `s`. */
  function LineEnd(s: string, k: nat): (e: nat)
    requires k <= |s|
    ensures k <= e <= |s| && SameLine(s, k, e)
    ensures e == |s| || IsLineTerminator(s[e])
    decreases |s| - k
  {
    if k == |s| || IsLineTerminator(s[k]) then k else LineEnd(s, k + 1)
  }

  /** The last `.jpg` lying wholly inside `s[lo..hi]`. */
  function LastJpg(s: string, lo: nat, hi: nat): (r: Option<nat>)
    requires hi <= |s|
    ensures r.Some? ==> lo <= r.value && r.value + 4 <= hi && JpgAt(s, r.value)
    ensures r.Some? ==> forall j :: r.value < j && j + 4 <= hi ==> !JpgAt(s, j)
    ensures r.None? ==> forall j :: lo <= j && j + 4 <= hi ==> !JpgAt(s, j)
    decreases hi
  {
    if hi < lo + 4 then None
    else if s[hi - 4] == '.' && s[hi - 3] == 'j' && s[hi - 2] == 'p' && s[hi - 1] == 'g' then Some(hi - 4)
    else LastJpg(s, lo, hi - 1)
  }

  /** The longest match starting at `i`, if any. */
  function LongestAt(s: string, i: nat): (r: Option<nat>)
    ensures r.Some? ==> Matches(s, i, r.value) && forall j :: Matches(s, i, j) ==> j <= r.value
    ensures r.None? ==> forall j :: !Matches(s, i, j)
  {
    if i + 2 <= |s| && s[i] == 'U' && s[i + 1] == 'X' then
      var e := LineEnd(s, i + 2);
      assert forall j :: Matches(s, i, j) ==> j + 4 <= e;
      LastJpg(s, i + 2, e)
    else
      None
  }

  /** The leftmost match starting at or after `from`, with its longest extent. */
  function FirstMatch(s: string, from: nat): (r: Option<(nat, nat)>)
    ensures r.Some? ==> from <= r.value.0 && Matches(s, r.value.0, r.value.1)
    ensures r.Some? ==> forall j :: Matches(s, r.value.0, j) ==> j <= r.value.1
    ensures r.Some? ==> forall i, j :: from <= i < r.value.0 ==> !Matches(s, i, j)
    ensures r.None? ==> forall i, j :: from <= i ==> !Matches(s, i, j)
    decreases |s| - from
  {
    if from >= |s| then None
    else
      match LongestAt(s, from)
      case Some(j) => Some((from, j))
      case None => FirstMatch(s, from + 1)
  }

  /** The rewritten URL: the chosen match replaced by `UX3000.jpg`, or the URL unchanged when nothing matches. */
  function MaxResolution(url: string): (r: string)
    ensures (forall i, j :: !Matches(url, i, j)) ==> r == url
    ensures forall i, j :: Chosen(url, i, j) ==> r == url[..i] + Replacement + url[j + 4..]
  {
    match FirstMatch(url, 0)
    case None => url
    case Some((i, j)) =>
      assert Chosen(url, i, j);
      assert forall i', j' :: Chosen(url, i', j') ==> i' == i && j' == j;
      url[..i] + Replacement + url[j + 4..]
  }

  /** A URL with any match has a chosen one, so one of the two cases of `MaxResolution`'s contract applies. */
  lemma MatchIsChosen(url: string)
    ensures (exists i, j :: Matches(url, i, j)) ==> exists i, j :: Chosen(url, i, j)
  {
    match FirstMatch(url, 0)
    case None =>
    case Some((i, j)) =>
      assert Chosen(url, i, j);
  }

  /** On a URL without line breaks the chosen match starts at the first `UX` and ends at the last `.jpg`. */
  lemma SingleLineSpan(s: string, i: int, j: int)
    requires SameLine(s, 0, |s|)
    requires Chosen(s, i, j)
    ensures forall i' :: 0 <= i' < i ==> !UxAt(s, i')
    ensures forall j' :: j < j' ==> !JpgAt(s, j')
  {
    forall i' | 0 <= i' < i && UxAt(s, i') ensures false {
      assert Matches(s, i', j);
    }
    forall j' | j < j' && JpgAt(s, j') ensures false {
      assert Matches(s, i, j');
    }
  }

  /** The characters of `s[..i] + Replacement + s[j + 4..]`, position by position. */
  lemma SpliceChars(s: string, i: int, j: int, t: string)
    requires 0 <= i <= j && j + 4 <= |s|
    requires t == s[..i] + Replacement + s[j + 4..]
    ensures |t| == i + 10 + (|s| - j - 4)
    ensures forall p :: 0 <= p < i ==> t[p] == s[p]
    ensures forall p :: 0 <= p < 10 ==> t[i + p] == Replacement[p]
    ensures forall p :: i + 10 <= p < |t| ==> t[p] == s[p - i - 6 + j]
  {
  }

  /** Rewriting an already rewritten URL changes nothing. */
  lemma {:induction false} MaxResolutionIdempotent(s: string)
    ensures MaxResolution(MaxResolution(s)) == MaxResolution(s)
  {
    match FirstMatch(s, 0)
    case None =>
    case Some((i, j)) =>
      assert Chosen(s, i, j);
      var t := s[..i] + Replacement + s[j + 4..];
      assert MaxResolution(s) == t;
      SpliceChars(s, i, j, t);
      ReplacementChosen(s, i, j, t);
      assert t[..i] == s[..i];
      assert t[i + 10..] == s[j + 4..];
      assert MaxResolution(t) == t[..i] + Replacement + t[i + 10..];
  }

  /** In the rewritten URL, the inserted `UX3000.jpg` is itself the chosen match. */
  lemma ReplacementChosen(s: string, i: int, j: int, t: string)
    requires Chosen(s, i, j)
    requires |t| == i + 10 + (|s| - j - 4)
    requires forall p :: 0 <= p < i ==> t[p] == s[p]
    requires forall p :: 0 <= p < 10 ==> t[i + p] == Replacement[p]
    requires forall p :: i + 10 <= p < |t| ==> t[p] == s[p - i - 6 + j]
    ensures Chosen(t, i, i + 6)
  {
    assert t[i] == 'U' && t[i + 1] == 'X' by {
      assert t[i + 0] == Replacement[0];
      assert t[i + 1] == Replacement[1];
    }
    assert JpgAt(t, i + 6) by {
      assert t[i + 6] == Replacement[6];
      assert t[i + 7] == Replacement[7];
      assert t[i + 8] == Replacement[8];
      assert t[i + 9] == Replacement[9];
    }
    assert SameLine(t, i + 2, i + 6) by {
      forall k | i + 2 <= k < i + 6 ensures !IsLineTerminator(t[k]) {
        assert t[i + (k - i)] == Replacement[k - i];
      }
    }
    assert Matches(t, i, i + 6);
    NoJpgInsideReplacement(i, t);
    forall j' | i + 10 <= j' && Matches(t, i, j') ensures Matches(s, i, j' - i - 6 + j) {
      LaterJpgLiftsBack(s, i, j, t, j');
    }
    NoUxStraddle(i, t);
    forall i', j' | 0 <= i' && i' + 2 <= i && (j' + 4 <= i || i <= j') && Matches(t, i', j')
      ensures Matches(s, i', j') || Matches(s, i', j)
    {
      EarlierMatchLiftsBack(s, i, j, t, i', j');
    }
  }

  /** No `.jpg` starts inside `UX3000.jpg` after its own, nor straddles its front. */
  lemma NoJpgInsideReplacement(i: int, t: string)
    requires 0 <= i && i + 10 <= |t|
    requires forall p :: 0 <= p < 10 ==> t[i + p] == Replacement[p]
    ensures forall j' :: i + 6 < j' < i + 10 ==> !JpgAt(t, j')
    ensures forall j' :: j' < i < j' + 4 ==> !JpgAt(t, j')
  {
    assert t[i + 0] == Replacement[0];
    forall j' | i + 6 < j' < i + 10 ensures !JpgAt(t, j') {
      assert t[i + (j' - i)] == Replacement[j' - i];
    }
  }

  /** No `UX` straddles the front of the inserted text. */
  lemma NoUxStraddle(i: int, t: string)
    requires 0 <= i && i + 10 <= |t|
    requires forall p :: 0 <= p < 10 ==> t[i + p] == Replacement[p]
    ensures !UxAt(t, i - 1)
  {
    assert t[i + 0] == Replacement[0];
  }

  /** A match running past the inserted text corresponds to a longer match in the original. */
  lemma LaterJpgLiftsBack(s: string, i: int, j: int, t: string, j': int)
    requires Matches(s, i, j)
    requires |t| == i + 10 + (|s| - j - 4)
    requires forall p :: i + 10 <= p < |t| ==> t[p] == s[p - i - 6 + j]
    requires i + 10 <= j' && Matches(t, i, j')
    ensures Matches(s, i, j' - i - 6 + j)
  {
    var k := j' - i - 6 + j;
    assert t[j'] == s[k] && t[j' + 1] == s[k + 1] && t[j' + 2] == s[k + 2] && t[j' + 3] == s[k + 3];
    forall p | i + 2 <= p < k ensures !IsLineTerminator(s[p]) {
      if j + 4 <= p {
        assert t[p + i + 6 - j] == s[p];
      }
    }
  }

  /** A match starting in front of the inserted text corresponds to a match in the original. */
  lemma EarlierMatchLiftsBack(s: string, i: int, j: int, t: string, i': int, j': int)
    requires Matches(s, i, j)
    requires |t| == i + 10 + (|s| - j - 4)
    requires forall p :: 0 <= p < i ==> t[p] == s[p]
    requires 0 <= i' && i' + 2 <= i && (j' + 4 <= i || i <= j') && Matches(t, i', j')
    ensures Matches(s, i', j') || Matches(s, i', j)
  {
    assert t[i'] == s[i'] && t[i' + 1] == s[i' + 1];
    if j' + 4 <= i {
      assert t[j'] == s[j'] && t[j' + 1] == s[j' + 1] && t[j' + 2] == s[j' + 2] && t[j' + 3] == s[j' + 3];
      assert Matches(s, i', j');
    } else {
      forall p | i' + 2 <= p < j ensures !IsLineTerminator(s[p]) {
        if p < i {
          assert t[p] == s[p];
        }
      }
      assert Matches(s, i', j);
    }
  }
}

=== FILE: search.dfy ===
/**
 * The cache-aside operations: title search, title details, cast and episode
 * lists (and the tagline lookup as it stands). Each operation is a state
 * transition over the document store: it returns the value or the error the
 * source would throw, the store afterwards, and the URLs it fetched, in order.
 * The web is a parameter: for every URL, the page's fragments or `None` when
 * the request fails.
 */
module Search {
  import opened Wrappers
  import opened Database
  import opened Pages
  import Numbers
  import Text

  const TitlesCollection: string := "titles"
  const CastCollection: string := "cast"
  const EpisodesCollection: string := "episodes"
  const TaglinesCollection: string := "taglines"

  /** At most this many search results are looked up. */
  const MaxResults: nat := 5

  const Site: string := "https://www.imdb.com"

  function SearchUrl(titleName: string): string {
    Site + "/search/title/?title=" + titleName
  }

  function TitleUrl(id: string): string {
    Site + "/title/" + id
  }

  function TaglinesUrl(id: string): string {
    TitleUrl(id) + "/taglines"
  }

  function CastUrl(id: string): string {
    TitleUrl(id) + "/fullcredits"
  }

  /** How a season number is written into a URL. */
  function IntText(n: int): string {
    if n < 0 then "-" + Numbers.Decimal(-n) else Numbers.Decimal(n)
  }

  function EpisodesUrl(id: string, season: int): string {
    TitleUrl(id) + "/episodes/?season=" + IntText(season)
  }

  /** What a GET of each URL yields: the page's fragments, or `None` when the request fails. */
  datatype Web = Web(
    searchPage: string -> Option<SearchPage>,
    titlePage: string -> Option<TitlePage>,
    castPage: string -> Option<seq<CastRow>>,
    episodesPage: string -> Option<seq<Article>>,
    taglinesPage: string -> Option<seq<string>>)

  /** The payload of a stored document, one shape per collection. */
  datatype Body =
    | TitleBody(data: TitleData)
    | CastBody(cast: seq<CastMember>)
    | EpisodesBody(episodes: seq<Episode>)
    | TaglinesBody(taglines: seq<string>)

  type Store = Db<Body>
  type Document = Stored<Body>

  /** What the operations throw. */
  datatype Error =
    | FetchFailed(url: string)      // the GET was rejected
    | TypeError                     // a string method called on a missing attribute or on a failed match
    | NoResults(titleName: string)  // "No results found for search with title ..."
    | InvalidImdbId                 // every failure of the title lookup
    | InvalidSeason                 // "Season cant be 0 or a negative Int"
    | NoEpisodes(season: int)       // "No episodes found for season ..."
    | NoCast(imdbId: string)        // "Coudnt find any cast for imdb_id ..."
    | ReferenceError                // the tagline lookup reads an undefined variable
    | StoreRefused(e: DbError)      // the store refused the insert

  /** The outcome of one operation: its value or error, the store afterwards, the URLs fetched in order. */
  datatype Run<R> = Run(result: Result<R, Error>, db: Store, fetched: seq<string>)

  /** What the operations ever store under (collection, key). */
  predicate EntryOk(c: string, k: Key, d: Document) {
    && d.id == k
    && (c == TitlesCollection ==>
          k.Id? && d.body.TitleBody? && d.body.data.imdbId == k.id && WellShaped(d.body.data))
    && (c == CastCollection ==> k.Id? && d.body.CastBody? && |d.body.cast| > 0)
    && (c == EpisodesCollection ==>
          k.IdSeason? && k.season >= 1 && d.body.EpisodesBody? && |d.body.episodes| > 0)
  }

  /** The store invariant every operation keeps. */
  ghost predicate Consistent(db: Store) {
    forall p | p in db :: EntryOk(p.0, p.1, db[p])
  }

  /** `db'` is `db` with at most new entries in collection `c`: nothing already stored changes. */
  ghost predicate GrowsOnly(db: Store, db': Store, c: string) {
    && (forall p | p in db :: p in db' && db'[p] == db[p])
    && (forall p | p in db' && p !in db :: p.0 == c)
  }

  // ---------------------------------------------------------------- title details

  /**
   * Title details for `id`. A stored document answers without fetching; on a
   * miss the page is fetched, extracted, stored with `expiresAt = now + Ttl`
   * under the same key, and returned. Every failure becomes `InvalidImdbId`
   * and stores nothing.
   */
  function GetInfo(db: Store, web: Web, now: int, id: string): (r: Run<TitleData>)
    requires Consistent(db)
    ensures Consistent(r.db) && GrowsOnly(db, r.db, TitlesCollection)
    ensures (TitlesCollection, Id(id)) in db ==>
      r == Run(Success(db[(TitlesCollection, Id(id))].body.data), db, [])
    ensures (TitlesCollection, Id(id)) !in db ==> r.fetched == [TitleUrl(id)]
    ensures (TitlesCollection, Id(id)) !in db ==>
      (r.result.Success? <==> web.titlePage(TitleUrl(id)).Some? && web.titlePage(TitleUrl(id)).value.imageSrc.Some?)
    ensures (TitlesCollection, Id(id)) !in db && r.result.Success? ==>
      && ExtractTitle(id, web.titlePage(TitleUrl(id)).value) == Some(r.result.value)
      && r.db == db[(TitlesCollection, Id(id)) := Stored(Id(id), TitleBody(r.result.value), now + Ttl)]
    ensures r.result.Failure? ==> r.result.error == InvalidImdbId && r.db == db
    ensures r.result.Success? ==> r.result.value.imdbId == id && WellShaped(r.result.value)
  {
    var key := Id(id);
    match Find(db, key, TitlesCollection)
    case Some(doc) =>
      assert EntryOk(TitlesCollection, key, db[(TitlesCollection, key)]);
      Run(Success(doc.body.data), db, [])
    case None =>
      var url := TitleUrl(id);
      match web.titlePage(url)
      case None => Run(Failure(InvalidImdbId), db, [url])
      case Some(page) =>
        match ExtractTitle(id, page)
        case None => Run(Failure(InvalidImdbId), db, [url])
        case Some(data) =>
          match Insert(db, Doc(key, TitleBody(data)), TitlesCollection, now)
          case Failure(_) => Run(Failure(InvalidImdbId), db, [url])
          case Success((db', _)) => Run(Success(data), db', [url])
  }

  /** A second lookup after a successful one answers the same record from the store, whatever the web and clock now say. */
  lemma InfoRepeatIsCached(db: Store, web: Web, web': Web, now: int, now': int, id: string)
    requires Consistent(db)
    requires GetInfo(db, web, now, id).result.Success?
    ensures var r1 := GetInfo(db, web, now, id);
      GetInfo(r1.db, web', now', id) == Run(r1.result, r1.db, [])
  {
    var r1 := GetInfo(db, web, now, id);
    assert (TitlesCollection, Id(id)) in r1.db;
  }

  // ---------------------------------------------------------------- search

  function Min(a: nat, b: nat): nat {
    if a <= b then a else b
  }

  /** The title-page URL of each ID, in order. */
  function TitleUrls(ids: seq<string>): (us: seq<string>)
    ensures |us| == |ids| && forall k :: 0 <= k < |ids| ==> us[k] == TitleUrl(ids[k])
  {
    seq(|ids|, k requires 0 <= k < |ids| => TitleUrl(ids[k]))
  }

  /**
   * The title lookups of the search fan-out, one per ID and in ID order. The
   * source runs them concurrently; here they run one after another on the
   * threaded store. All of them run, as no lookup cancels another, and the
   * whole fails when any one fails.
   */
  function InfoAll(db: Store, web: Web, now: int, ids: seq<string>): (r: Run<seq<TitleData>>)
    requires Consistent(db)
    ensures Consistent(r.db) && GrowsOnly(db, r.db, TitlesCollection)
    ensures r.result.Success? ==>
      |r.result.value| == |ids| && forall k :: 0 <= k < |ids| ==> r.result.value[k].imdbId == ids[k]
    ensures r.result.Failure? ==> r.result.error == InvalidImdbId
    ensures |r.fetched| <= |ids| && forall u :: u in r.fetched ==> u in TitleUrls(ids)
    decreases |ids|
  {
    if ids == [] then Run(Success([]), db, [])
    else
      var first := GetInfo(db, web, now, ids[0]);
      var rest := InfoAll(first.db, web, now, ids[1..]);
      GrowsOnlyTrans(db, first.db, rest.db, TitlesCollection);
      FetchedCons(ids, first.fetched, rest.fetched);
      var result :=
        if first.result.Success? && rest.result.Success? then
          ResultsCons(ids, first.result.value, rest.result.value);
          Success([first.result.value] + rest.result.value)
        else Failure(InvalidImdbId);
      Run(result, rest.db, first.fetched + rest.fetched)
  }

  lemma GrowsOnlyTrans(a: Store, b: Store, c: Store, col: string)
    requires GrowsOnly(a, b, col) && GrowsOnly(b, c, col)
    ensures GrowsOnly(a, c, col)
  {
  }

  /** The fetches of the head lookup followed by those of the tail stay within the IDs' title URLs. */
  lemma FetchedCons(ids: seq<string>, head: seq<string>, tail: seq<string>)
    requires ids != []
    requires head == [] || head == [TitleUrl(ids[0])]
    requires |tail| <= |ids| - 1 && forall u :: u in tail ==> u in TitleUrls(ids[1..])
    ensures |head + tail| <= |ids| && forall u :: u in head + tail ==> u in TitleUrls(ids)
  {
    var us := TitleUrls(ids);
    assert us == [TitleUrl(ids[0])] + TitleUrls(ids[1..]);
  }

  /** The head lookup's record followed by the tail's records matches the IDs one by one. */
  lemma ResultsCons(ids: seq<string>, head: TitleData, tail: seq<TitleData>)
    requires ids != [] && head.imdbId == ids[0]
    requires |tail| == |ids| - 1 && forall k :: 0 <= k < |tail| ==> tail[k].imdbId == ids[1..][k]
    ensures var vs := [head] + tail;
      |vs| == |ids| && forall k :: 0 <= k < |ids| ==> vs[k].imdbId == ids[k]
  {
  }

  /** The IDs a search page yields, or `None` when the page failed or a link did not match. */
  function Candidates(web: Web, titleName: string): Option<seq<string>> {
    var page :- web.searchPage(SearchUrl(titleName));
    ExtractIds(page.hrefs)
  }

  /**
   * Search by title name: fetch the search page, take the catalog ID of every
   * result link (any link that fails aborts the search), reject an empty
   * list, and look up the first five IDs in order.
   */
  function SearchTitles(db: Store, web: Web, now: int, titleName: string): (r: Run<seq<TitleData>>)
    requires Consistent(db)
    ensures Consistent(r.db) && GrowsOnly(db, r.db, TitlesCollection)
    ensures |r.fetched| >= 1 && r.fetched[0] == SearchUrl(titleName) && |r.fetched| <= 1 + MaxResults
    ensures web.searchPage(SearchUrl(titleName)).None? ==>
      r == Run(Failure(FetchFailed(SearchUrl(titleName))), db, [SearchUrl(titleName)])
    ensures web.searchPage(SearchUrl(titleName)).Some? && Candidates(web, titleName).None? ==>
      r == Run(Failure(TypeError), db, [SearchUrl(titleName)])
    ensures Candidates(web, titleName) == Some([]) ==>
      r == Run(Failure(NoResults(titleName)), db, [SearchUrl(titleName)])
    ensures r.result.Success? ==>
      && Candidates(web, titleName).Some?
      && var ids := Candidates(web, titleName).value;
      && 1 <= |r.result.value| == Min(MaxResults, |ids|)
      && forall k :: 0 <= k < |r.result.value| ==> r.result.value[k].imdbId == ids[k]
    ensures Candidates(web, titleName).Some? ==>
      forall u :: u in r.fetched[1..] ==> u in TitleUrls(Candidates(web, titleName).value[..Min(MaxResults, |Candidates(web, titleName).value|)])
  {
    var url := SearchUrl(titleName);
    match web.searchPage(url)
    case None => Run(Failure(FetchFailed(url)), db, [url])
    case Some(page) =>
      match ExtractIds(page.hrefs)
      case None => Run(Failure(TypeError), db, [url])
      case Some(ids) =>
        if |ids| == 0 then Run(Failure(NoResults(titleName)), db, [url])
        else
          FanOut(db, web, now, url, ids)
  }

  /** After the search page at `url` yielded `ids`, the lookups of the first five of them. */
  function FanOut(db: Store, web: Web, now: int, url: string, ids: seq<string>): (r: Run<seq<TitleData>>)
    requires Consistent(db) && |ids| > 0
    ensures Consistent(r.db) && GrowsOnly(db, r.db, TitlesCollection)
    ensures |r.fetched| >= 1 && r.fetched[0] == url && |r.fetched| <= 1 + MaxResults
    ensures r.result.Success? ==>
      && 1 <= |r.result.value| == Min(MaxResults, |ids|)
      && forall k :: 0 <= k < |r.result.value| ==> r.result.value[k].imdbId == ids[k]
    ensures forall u :: u in r.fetched[1..] ==> u in TitleUrls(ids[..Min(MaxResults, |ids|)])
  {
    var chosen := ids[..Min(MaxResults, |ids|)];
    var fan := InfoAll(db, web, now, chosen);
    assert ([url] + fan.fetched)[1..] == fan.fetched;
    Run(fan.result, fan.db, [url] + fan.fetched)
  }

  /** The title lookup of `id` fails on a miss: its page is unreachable or has no poster image. */
  ghost predicate LookupFails(web: Web, id: string) {
    web.titlePage(TitleUrl(id)).None? || web.titlePage(TitleUrl(id)).value.imageSrc.None?
  }

  /** A title that fails on a miss never gets into the store, whatever other lookups do. */
  lemma {:induction false} FailingTitleStaysOut(db: Store, web: Web, now: int, ids: seq<string>, id: string)
    requires Consistent(db)
    requires (TitlesCollection, Id(id)) !in db && LookupFails(web, id)
    ensures (TitlesCollection, Id(id)) !in InfoAll(db, web, now, ids).db
    decreases |ids|
  {
    if ids != [] {
      var first := GetInfo(db, web, now, ids[0]);
      assert (TitlesCollection, Id(id)) !in first.db;
      FailingTitleStaysOut(first.db, web, now, ids[1..], id);
    }
  }

  /** One uncached ID whose lookup fails makes the whole fan-out fail. */
  lemma {:induction false} OneFailureFailsAll(db: Store, web: Web, now: int, ids: seq<string>, k: nat)
    requires Consistent(db)
    requires k < |ids| && (TitlesCollection, Id(ids[k])) !in db && LookupFails(web, ids[k])
    ensures InfoAll(db, web, now, ids).result.Failure?
    decreases |ids|
  {
    var first := GetInfo(db, web, now, ids[0]);
    if k > 0 {
      if ids[0] == ids[k] {
        assert first.db == db;
      } else {
        assert (TitlesCollection, Id(ids[k])) !in first.db;
      }
      OneFailureFailsAll(first.db, web, now, ids[1..], k - 1);
    }
  }

  /** A search whose first five results include an uncached title that fails to load fails as a whole. */
  lemma SearchFailsOnAnyFailure(db: Store, web: Web, now: int, titleName: string, k: nat)
    requires Consistent(db)
    requires Candidates(web, titleName).Some?
    requires k < Min(MaxResults, |Candidates(web, titleName).value|)
    requires var id := Candidates(web, titleName).value[k];
      (TitlesCollection, Id(id)) !in db && LookupFails(web, id)
    ensures SearchTitles(db, web, now, titleName).result.Failure?
  {
    var ids := Candidates(web, titleName).value;
    OneFailureFailsAll(db, web, now, ids[..Min(MaxResults, |ids|)], k);
  }

  /** The lookup of `id` succeeds from `db`: the title is stored already, or its page has a poster. */
  ghost predicate LookupSucceeds(db: Store, web: Web, id: string) {
    (TitlesCollection, Id(id)) in db || !LookupFails(web, id)
  }

  /** An entry present before a step that only adds entries is still there, unchanged. */
  lemma StoredStays(a: Store, b: Store, c: string, key: (string, Key))
    requires GrowsOnly(a, b, c) && key in a
    ensures key in b && b[key] == a[key]
  {
  }

  /** Each record the fan-out returns is the one stored under its ID afterwards, position by position. */
  lemma {:induction false} InfoAllRecordsStored(db: Store, web: Web, now: int, ids: seq<string>)
    requires Consistent(db)
    ensures var r := InfoAll(db, web, now, ids);
      r.result.Success? ==> forall k :: 0 <= k < |ids| ==>
        && (TitlesCollection, Id(ids[k])) in r.db
        && r.db[(TitlesCollection, Id(ids[k]))].body.data == r.result.value[k]
    decreases |ids|
  {
    if ids != [] {
      var first := GetInfo(db, web, now, ids[0]);
      var rest := InfoAll(first.db, web, now, ids[1..]);
      InfoAllRecordsStored(first.db, web, now, ids[1..]);
      var r := InfoAll(db, web, now, ids);
      if r.result.Success? {
        assert r.db == rest.db && r.result.value == [first.result.value] + rest.result.value;
        var key := (TitlesCollection, Id(ids[0]));
        assert key in first.db && first.db[key].body.data == first.result.value;
        StoredStays(first.db, rest.db, TitlesCollection, key);
        forall k | 0 <= k < |ids|
          ensures (TitlesCollection, Id(ids[k])) in r.db
          ensures r.db[(TitlesCollection, Id(ids[k]))].body.data == r.result.value[k]
        {
          if k == 0 {
            assert r.result.value[0] == first.result.value;
          } else {
            assert ids[k] == ids[1..][k - 1];
            assert r.result.value[k] == rest.result.value[k - 1];
          }
        }
      }
    }
  }

  /** The fan-out succeeds when every lookup succeeds from the store it starts with. */
  lemma {:induction false} InfoAllSucceeds(db: Store, web: Web, now: int, ids: seq<string>)
    requires Consistent(db)
    requires forall k :: 0 <= k < |ids| ==> LookupSucceeds(db, web, ids[k])
    ensures InfoAll(db, web, now, ids).result.Success?
    decreases |ids|
  {
    if ids != [] {
      var first := GetInfo(db, web, now, ids[0]);
      assert first.result.Success?;
      forall k | 0 <= k < |ids| - 1 ensures LookupSucceeds(first.db, web, ids[1..][k]) {
        assert ids[1..][k] == ids[k + 1];
      }
      InfoAllSucceeds(first.db, web, now, ids[1..]);
    }
  }

  /** The fan-out succeeds exactly when every one of its lookups succeeds from the store it starts with. */
  lemma InfoAllSuccessIff(db: Store, web: Web, now: int, ids: seq<string>)
    requires Consistent(db)
    ensures InfoAll(db, web, now, ids).result.Success? <==>
      forall k :: 0 <= k < |ids| ==> LookupSucceeds(db, web, ids[k])
  {
    if forall k :: 0 <= k < |ids| ==> LookupSucceeds(db, web, ids[k]) {
      InfoAllSucceeds(db, web, now, ids);
    } else {
      var k :| 0 <= k < |ids| && !LookupSucceeds(db, web, ids[k]);
      OneFailureFailsAll(db, web, now, ids, k);
    }
  }

  /** `InfoAllSuccessIff` for the first five of `ids`, indexed into `ids` itself. */
  lemma FirstFiveSuccessIff(db: Store, web: Web, now: int, ids: seq<string>)
    requires Consistent(db)
    ensures InfoAll(db, web, now, ids[..Min(MaxResults, |ids|)]).result.Success? <==>
      forall k :: 0 <= k < Min(MaxResults, |ids|) ==> LookupSucceeds(db, web, ids[k])
  {
    var chosen := ids[..Min(MaxResults, |ids|)];
    InfoAllSuccessIff(db, web, now, chosen);
    assert forall k :: 0 <= k < |chosen| ==> chosen[k] == ids[k];
  }

  /** `InfoAllRecordsStored` for the first five of `ids`, indexed into `ids` itself. */
  lemma FirstFiveRecordsStored(db: Store, web: Web, now: int, ids: seq<string>)
    requires Consistent(db)
    ensures var r := InfoAll(db, web, now, ids[..Min(MaxResults, |ids|)]);
      r.result.Success? ==>
        && |r.result.value| <= |ids|
        && forall k :: 0 <= k < |r.result.value| ==>
          && (TitlesCollection, Id(ids[k])) in r.db
          && r.db[(TitlesCollection, Id(ids[k]))].body.data == r.result.value[k]
  {
    var chosen := ids[..Min(MaxResults, |ids|)];
    InfoAllRecordsStored(db, web, now, chosen);
    assert forall k :: 0 <= k < |chosen| ==> chosen[k] == ids[k];
  }

  /**
   * Once the search page lists at least one ID, the search is the fan-out over
   * the first five of them: its result and store are the fan-out's, and its
   * fetches are the search page followed by the fan-out's fetches.
   */
  lemma SearchRunsFanOut(db: Store, web: Web, now: int, titleName: string)
    requires Consistent(db)
    requires Candidates(web, titleName).Some? && |Candidates(web, titleName).value| > 0
    ensures var ids := Candidates(web, titleName).value;
      var fan := InfoAll(db, web, now, ids[..Min(MaxResults, |ids|)]);
      SearchTitles(db, web, now, titleName) == Run(fan.result, fan.db, [SearchUrl(titleName)] + fan.fetched)
  {
  }

  /** A search succeeds exactly when its page lists at least one ID and the first five lookups all succeed. */
  lemma SearchSuccessIff(db: Store, web: Web, now: int, titleName: string)
    requires Consistent(db)
    requires Candidates(web, titleName).Some?
    ensures var ids := Candidates(web, titleName).value;
      SearchTitles(db, web, now, titleName).result.Success? <==>
        |ids| > 0 && forall k :: 0 <= k < Min(MaxResults, |ids|) ==> LookupSucceeds(db, web, ids[k])
  {
    var ids := Candidates(web, titleName).value;
    if |ids| > 0 {
      SearchRunsFanOut(db, web, now, titleName);
      FirstFiveSuccessIff(db, web, now, ids);
    }
  }

  /** Each record a search returns is the one stored, afterwards, under the ID at the same position of the page. */
  lemma SearchRecordsStored(db: Store, web: Web, now: int, titleName: string)
    requires Consistent(db)
    ensures var r := SearchTitles(db, web, now, titleName);
      r.result.Success? ==>
        && Candidates(web, titleName).Some?
        && var ids := Candidates(web, titleName).value;
        && |r.result.value| <= |ids|
        && forall k :: 0 <= k < |r.result.value| ==>
          && (TitlesCollection, Id(ids[k])) in r.db
          && r.db[(TitlesCollection, Id(ids[k]))].body.data == r.result.value[k]
  {
    if Candidates(web, titleName).Some? && |Candidates(web, titleName).value| > 0 {
      SearchRunsFanOut(db, web, now, titleName);
      FirstFiveRecordsStored(db, web, now, Candidates(web, titleName).value);
    }
  }

  /**
   * Every entry of `db'` that is not in `db` is the title record built from
   * its own title page and stamped `expiresAt = now + Ttl`.
   */
  ghost predicate NewFromPages(db: Store, db': Store, web: Web, now: int) {
    forall p | p in db' && p !in db ::
      && p.1.Id?
      && web.titlePage(TitleUrl(p.1.id)).Some?
      && ExtractTitle(p.1.id, web.titlePage(TitleUrl(p.1.id)).value).Some?
      && db'[p] == Stored(p.1, TitleBody(ExtractTitle(p.1.id, web.titlePage(TitleUrl(p.1.id)).value).value), now + Ttl)
  }

  /** What a single title lookup adds to the store is built from the title's page. */
  lemma InfoFromPage(db: Store, web: Web, now: int, id: string)
    requires Consistent(db)
    ensures NewFromPages(db, GetInfo(db, web, now, id).db, web, now)
  {
    var r := GetInfo(db, web, now, id);
    if (TitlesCollection, Id(id)) !in db && r.result.Success? {
      var page := web.titlePage(TitleUrl(id)).value;
      assert ExtractTitle(id, page) == Some(r.result.value);
    }
  }

  /** Every entry of `db'` that is not in `db` is the title document of one of `ids`. */
  ghost predicate AddsOnly(db: Store, db': Store, ids: seq<string>) {
    forall p | p in db' && p !in db :: p.0 == TitlesCollection && p.1.Id? && p.1.id in ids
  }

  /** The fan-out stores title documents only under the IDs it looked up. */
  lemma {:induction false} InfoAllAddsOnly(db: Store, web: Web, now: int, ids: seq<string>)
    requires Consistent(db)
    ensures AddsOnly(db, InfoAll(db, web, now, ids).db, ids)
    decreases |ids|
  {
    if ids != [] {
      var first := GetInfo(db, web, now, ids[0]);
      var rest := InfoAll(first.db, web, now, ids[1..]);
      InfoAllAddsOnly(first.db, web, now, ids[1..]);
      assert InfoAll(db, web, now, ids).db == rest.db;
      forall p | p in rest.db && p !in db
        ensures p.0 == TitlesCollection && p.1.Id? && p.1.id in ids
      {
        if p in first.db {
          assert p == (TitlesCollection, Id(ids[0]));
        } else {
          assert p.1.id in ids[1..];
        }
      }
    }
  }

  /** Whatever the fan-out adds to the store is built from the added titles' pages. */
  lemma {:induction false} InfoAllFromPages(db: Store, web: Web, now: int, ids: seq<string>)
    requires Consistent(db)
    ensures NewFromPages(db, InfoAll(db, web, now, ids).db, web, now)
    ensures AddsOnly(db, InfoAll(db, web, now, ids).db, ids)
    decreases |ids|
  {
    if ids != [] {
      var first := GetInfo(db, web, now, ids[0]);
      var rest := InfoAll(first.db, web, now, ids[1..]);
      InfoFromPage(db, web, now, ids[0]);
      InfoAllFromPages(first.db, web, now, ids[1..]);
      assert InfoAll(db, web, now, ids).db == rest.db;
      forall p | p in rest.db && p !in db
        ensures p.1.Id? && web.titlePage(TitleUrl(p.1.id)).Some?
        ensures ExtractTitle(p.1.id, web.titlePage(TitleUrl(p.1.id)).value).Some?
        ensures rest.db[p] == Stored(p.1, TitleBody(ExtractTitle(p.1.id, web.titlePage(TitleUrl(p.1.id)).value).value), now + Ttl)
      {
        if p in first.db {
          StoredStays(first.db, rest.db, TitlesCollection, p);
        }
      }
    }
    InfoAllAddsOnly(db, web, now, ids);
  }

  /**
   * The record a successful fan-out returns for `ids[k]`: the stored one when
   * the ID was cached at the start; otherwise the record extracted from its
   * title page, now stored stamped `expiresAt = now + Ttl`.
   */
  lemma InfoAllRecordContents(db: Store, web: Web, now: int, ids: seq<string>, k: nat)
    requires Consistent(db)
    requires InfoAll(db, web, now, ids).result.Success? && k < |ids|
    ensures var r := InfoAll(db, web, now, ids);
      var key := (TitlesCollection, Id(ids[k]));
      && key in r.db
      && (key in db ==> db[key].body == TitleBody(r.result.value[k]))
      && (key !in db ==>
            && web.titlePage(TitleUrl(ids[k])).Some?
            && ExtractTitle(ids[k], web.titlePage(TitleUrl(ids[k])).value) == Some(r.result.value[k])
            && r.db[key] == Stored(Id(ids[k]), TitleBody(r.result.value[k]), now + Ttl))
  {
    var r := InfoAll(db, web, now, ids);
    InfoAllRecordsStored(db, web, now, ids);
    InfoAllFromPages(db, web, now, ids);
    RecordContents(db, r.db, web, now, ids[k], r.result.value[k]);
  }

  /** The record stored under `id` after a step that only adds title records built from their pages. */
  lemma RecordContents(db: Store, db': Store, web: Web, now: int, id: string, data: TitleData)
    requires GrowsOnly(db, db', TitlesCollection) && NewFromPages(db, db', web, now)
    requires var key := (TitlesCollection, Id(id)); key in db' && db'[key].body == TitleBody(data)
    ensures var key := (TitlesCollection, Id(id));
      && (key in db ==> db[key].body == TitleBody(data))
      && (key !in db ==>
            && web.titlePage(TitleUrl(id)).Some?
            && ExtractTitle(id, web.titlePage(TitleUrl(id)).value) == Some(data)
            && db'[key] == Stored(Id(id), TitleBody(data), now + Ttl))
  {
    var key := (TitlesCollection, Id(id));
    if key in db {
      StoredStays(db, db', TitlesCollection, key);
    }
  }

  /**
   * The record a successful search returns at position k: the stored one when
   * the k-th ID of the page was cached at the start; otherwise the record
   * extracted from that title's page, now stored stamped `expiresAt = now + Ttl`.
   */
  lemma SearchRecordContents(db: Store, web: Web, now: int, titleName: string, k: nat)
    requires Consistent(db)
    ensures var r := SearchTitles(db, web, now, titleName);
      r.result.Success? && k < |r.result.value| ==>
        && Candidates(web, titleName).Some? && k < |Candidates(web, titleName).value|
        && var id := Candidates(web, titleName).value[k];
        && var key := (TitlesCollection, Id(id));
        && key in r.db
        && (key in db ==> db[key].body == TitleBody(r.result.value[k]))
        && (key !in db ==>
              && web.titlePage(TitleUrl(id)).Some?
              && ExtractTitle(id, web.titlePage(TitleUrl(id)).value) == Some(r.result.value[k])
              && r.db[key] == Stored(Id(id), TitleBody(r.result.value[k]), now + Ttl))
  {
    var r := SearchTitles(db, web, now, titleName);
    if r.result.Success? && k < |r.result.value| {
      var ids := Candidates(web, titleName).value;
      SearchRunsFanOut(db, web, now, titleName);
      var chosen := ids[..Min(MaxResults, |ids|)];
      InfoAllRecordContents(db, web, now, chosen, k);
      assert chosen[k] == ids[k];
    }
  }

  /** A search stores title documents only under the first five IDs of its page. */
  lemma SearchAddsOnly(db: Store, web: Web, now: int, titleName: string)
    requires Consistent(db)
    ensures var r := SearchTitles(db, web, now, titleName);
      r.db != db ==>
        && Candidates(web, titleName).Some?
        && var ids := Candidates(web, titleName).value;
        && AddsOnly(db, r.db, ids[..Min(MaxResults, |ids|)])
  {
    if Candidates(web, titleName).Some? && |Candidates(web, titleName).value| > 0 {
      var ids := Candidates(web, titleName).value;
      SearchRunsFanOut(db, web, now, titleName);
      InfoAllAddsOnly(db, web, now, ids[..Min(MaxResults, |ids|)]);
    }
  }

  // ---------------------------------------------------------------- cast

  /**
   * The cast of `id`. A stored document is returned as it is; on a miss the
   * credits page is fetched, the kept rows become the cast list, an empty list
   * is an error, and otherwise the document is stored stamped and returned.
   */
  function GetCast(db: Store, web: Web, now: int, id: string): (r: Run<Document>)
    requires Consistent(db)
    ensures Consistent(r.db) && GrowsOnly(db, r.db, CastCollection)
    ensures (CastCollection, Id(id)) in db ==> r == Run(Success(db[(CastCollection, Id(id))]), db, [])
    ensures (CastCollection, Id(id)) !in db ==> r.fetched == [CastUrl(id)]
    ensures (CastCollection, Id(id)) !in db ==> match web.castPage(CastUrl(id))
      case None => r.result == Failure(FetchFailed(CastUrl(id)))
      case Some(rows) =>
        if ExtractCast(rows) == [] then r.result == Failure(NoCast(id))
        else r.result == Success(Stored(Id(id), CastBody(ExtractCast(rows)), now + Ttl))
    ensures r.result.Failure? ==> r.db == db
    ensures r.result.Success? ==> (CastCollection, Id(id)) in r.db && r.db[(CastCollection, Id(id))] == r.result.value
    ensures r.result.Success? && (CastCollection, Id(id)) !in db ==>
      r.db == db[(CastCollection, Id(id)) := r.result.value]
  {
    var key := Id(id);
    match Find(db, key, CastCollection)
    case Some(doc) => Run(Success(doc), db, [])
    case None =>
      var url := CastUrl(id);
      match web.castPage(url)
      case None => Run(Failure(FetchFailed(url)), db, [url])
      case Some(rows) =>
        var cast := ExtractCast(rows);
        if |cast| <= 0 then Run(Failure(NoCast(id)), db, [url])
        else
          match Insert(db, Doc(key, CastBody(cast)), CastCollection, now)
          case Failure(e) => Run(Failure(StoreRefused(e)), db, [url])
          case Success((db', stamped)) => Run(Success(stamped), db', [url])
  }

  /** A second cast lookup returns the very document the first one stored, without fetching. */
  lemma CastRepeatIsCached(db: Store, web: Web, web': Web, now: int, now': int, id: string)
    requires Consistent(db)
    requires GetCast(db, web, now, id).result.Success?
    ensures var r1 := GetCast(db, web, now, id);
      GetCast(r1.db, web', now', id) == Run(r1.result, r1.db, [])
  {
  }

  // ---------------------------------------------------------------- episodes

  /**
   * The episodes of one season. A stored document is returned as it is; on a
   * miss a season below 1 is rejected before any fetch, then the season page
   * is fetched, every card becomes an episode, an empty list is an error, and
   * otherwise the document is stored under `{imdb_id, season}` and returned.
   */
  function GetEpisodes(db: Store, web: Web, now: int, id: string, season: int): (r: Run<Document>)
    requires Consistent(db)
    ensures Consistent(r.db) && GrowsOnly(db, r.db, EpisodesCollection)
    ensures (EpisodesCollection, IdSeason(id, season)) in db ==>
      r == Run(Success(db[(EpisodesCollection, IdSeason(id, season))]), db, [])
    ensures (EpisodesCollection, IdSeason(id, season)) !in db && season <= 0 ==>
      r == Run(Failure(InvalidSeason), db, [])
    ensures (EpisodesCollection, IdSeason(id, season)) !in db && season > 0 ==>
      && r.fetched == [EpisodesUrl(id, season)]
      && match web.episodesPage(EpisodesUrl(id, season))
         case None => r.result == Failure(FetchFailed(EpisodesUrl(id, season)))
         case Some(cards) =>
           match ExtractEpisodes(cards)
           case None => r.result == Failure(TypeError)
           case Some(eps) =>
             if eps == [] then r.result == Failure(NoEpisodes(season))
             else r.result == Success(Stored(IdSeason(id, season), EpisodesBody(eps), now + Ttl))
    ensures r.result.Failure? ==> r.db == db
    ensures r.result.Success? ==>
      (EpisodesCollection, IdSeason(id, season)) in r.db && r.db[(EpisodesCollection, IdSeason(id, season))] == r.result.value
    ensures r.result.Success? && (EpisodesCollection, IdSeason(id, season)) !in db ==>
      r.db == db[(EpisodesCollection, IdSeason(id, season)) := r.result.value]
  {
    var key := IdSeason(id, season);
    match Find(db, key, EpisodesCollection)
    case Some(doc) => Run(Success(doc), db, [])
    case None =>
      if season <= 0 then Run(Failure(InvalidSeason), db, [])
      else
        var url := EpisodesUrl(id, season);
        match web.episodesPage(url)
        case None => Run(Failure(FetchFailed(url)), db, [url])
        case Some(cards) =>
          match ExtractEpisodes(cards)
          case None => Run(Failure(TypeError), db, [url])
          case Some(eps) =>
            if |eps| <= 0 then Run(Failure(NoEpisodes(season)), db, [url])
            else
              match Insert(db, Doc(key, EpisodesBody(eps)), EpisodesCollection, now)
              case Failure(e) => Run(Failure(StoreRefused(e)), db, [url])
              case Success((db', stamped)) => Run(Success(stamped), db', [url])
  }

  /** On a consistent store, a season below 1 is always rejected before any fetch and stores nothing. */
  lemma NonPositiveSeasonRejected(db: Store, web: Web, now: int, id: string, season: int)
    requires Consistent(db) && season <= 0
    ensures GetEpisodes(db, web, now, id, season) == Run(Failure(InvalidSeason), db, [])
  {
  }

  /** A second lookup of the same season returns the very document the first one stored, without fetching. */
  lemma EpisodesRepeatIsCached(db: Store, web: Web, web': Web, now: int, now': int, id: string, season: int)
    requires Consistent(db)
    requires GetEpisodes(db, web, now, id, season).result.Success?
    ensures var r1 := GetEpisodes(db, web, now, id, season);
      GetEpisodes(r1.db, web', now', id, season) == Run(r1.result, r1.db, [])
  {
  }

  // ---------------------------------------------------------------- taglines

  /**
   * The tagline lookup as written: a stored document is returned, but on a
   * miss, after the fetch, the emptiness test reads a variable that does not
   * exist, so every miss throws and nothing is ever stored.
   */
  function GetTaglines(db: Store, web: Web, id: string): (r: Run<Document>)
    ensures (TaglinesCollection, Id(id)) in db ==> r == Run(Success(db[(TaglinesCollection, Id(id))]), db, [])
    ensures (TaglinesCollection, Id(id)) !in db ==>
      && r.result.Failure? && r.db == db && r.fetched == [TaglinesUrl(id)]
      && (r.result.error == ReferenceError <==> web.taglinesPage(TaglinesUrl(id)).Some?)
  {
    match Find(db, Id(id), TaglinesCollection)
    case Some(doc) => Run(Success(doc), db, [])
    case None =>
      var url := TaglinesUrl(id);
      match web.taglinesPage(url)
      case None => Run(Failure(FetchFailed(url)), db, [url])
      case Some(_) => Run(Failure(ReferenceError), db, [url])
  }

  // ---------------------------------------------------------------- a worked case

  /**
   * A first detail lookup of a long-running show fetches once, derives 11
   * seasons from 13 selector options and 177 episodes from the subtext, and
   * stores the record stamped `expiresAt = now + Ttl`; a lookup six days later
   * returns the same record without fetching.
   */
  lemma ShowLookupScenario(db: Store, web: Web, now: int, page: TitlePage)
    requires Consistent(db) && (TitlesCollection, Id("tt1520211")) !in db
    requires web.titlePage(TitleUrl("tt1520211")) == Some(page)
    requires page.imageSrc.Some? && page.seasonOptions == 13 && page.subtexts == ["177"]
    requires page.heroText == "The Walking Dead" && page.ratingText == "8.1/10"
    ensures var r1 := GetInfo(db, web, now, "tt1520211");
      && r1.fetched == [TitleUrl("tt1520211")]
      && r1.result.Success?
      && r1.result.value.title == "The Walking Dead"
      && r1.result.value.mediaType == TVShow
      && r1.result.value.seasons == Some(11)
      && r1.result.value.episodes == Some(Numbers.Num(177))
      && r1.result.value.rating == "8.1/10"
      && r1.db[(TitlesCollection, Id("tt1520211"))].expiresAt == now + 604800
      && GetInfo(r1.db, web, now + 6 * 86400, "tt1520211") == Run(r1.result, r1.db, [])
  {
    ShowPageRecord(page);
    InfoRepeatIsCached(db, web, web, now, now + 6 * 86400, "tt1520211");
  }

  /** The record the show's page yields. */
  lemma ShowPageRecord(page: TitlePage)
    requires page.imageSrc.Some? && page.seasonOptions == 13 && page.subtexts == ["177"]
    requires page.heroText == "The Walking Dead" && page.ratingText == "8.1/10"
    ensures var d := ExtractTitle("tt1520211", page);
      && d.Some?
      && d.value.title == "The Walking Dead"
      && d.value.mediaType == TVShow
      && d.value.seasons == Some(11)
      && d.value.episodes == Some(Numbers.Num(177))
      && d.value.rating == "8.1/10"
  {
    ShowPageTexts();
    assert TextAt(page.subtexts, 0) == "177";
  }

  /** The texts of that page are already trimmed, and its episode count parses to 177. */
  lemma ShowPageTexts()
    ensures Text.Trim("The Walking Dead") == "The Walking Dead"
    ensures Text.Trim("8.1/10") == "8.1/10"
    ensures Numbers.ParseInt(Text.Trim("177")) == Numbers.Num(177)
  {
    Text.TrimTight("The Walking Dead");
    Text.TrimTight("8.1/10");
    Text.TrimTight("177");
    assert Numbers.Decimal(177) == "177";
    Numbers.ParseIntDecimal(177, []);
    assert Numbers.Decimal(177) + [] == "177";
  }
}

=== FILE: text.dfy ===
/**
 * Strings as JavaScript's `String.prototype.trim` sees them. Every text
 * fragment the scraper reads goes through `.text().trim()`, so the set of
 * characters trim removes decides, for instance, which cast rows are skipped.
 */
module Text {

  /** WhiteSpace and LineTerminator code points of ECMAScript (sections 12.2 and 12.3 of ECMA-262). */
  predicate IsSpace(c: char) {
    || c == '\t' || c == '\n' || c == '\U{000B}' || c == '\U{000C}' || c == '\r' || c == ' '
    || c == '\U{00A0}' || c == '\U{1680}' || ('\U{2000}' <= c <= '\U{200A}')
    || c == '\U{2028}' || c == '\U{2029}' || c == '\U{202F}' || c == '\U{205F}'
    || c == '\U{3000}' || c == '\U{FEFF}'
  }

  /** `\d` in a JavaScript regular expression, and a decimal digit for `parseInt`: an ASCII digit. */
  predicate IsDigit(c: char) {
    '0' <= c <= '9'
  }

  /** Every character of `s` is white space. */
  predicate AllSpace(s: string) {
    forall k :: 0 <= k < |s| ==> IsSpace(s[k])
  }

  /** `s` neither starts nor ends with white space. */
  predicate Tight(s: string) {
    s == [] || (!IsSpace(s[0]) && !IsSpace(s[|s| - 1]))
  }

  /** Leading white space removed (also the first step of `parseInt`). */
  function TrimStart(s: string): string {
    if |s| > 0 && IsSpace(s[0]) then TrimStart(s[1..]) else s
  }

  /** `TrimStart` keeps a suffix that does not start with white space, and drops only white space. */
  lemma {:induction false} TrimStartFacts(s: string)
    ensures var r := TrimStart(s);
      && |r| <= |s| && r == s[|s| - |r|..]
      && (r == [] || !IsSpace(r[0]))
      && AllSpace(s[..|s| - |r|])
  {
    if |s| > 0 && IsSpace(s[0]) {
      TrimStartFacts(s[1..]);
      assert s[..|s| - |TrimStart(s)|] == [s[0]] + s[1..][..|s| - 1 - |TrimStart(s[1..])|];
    }
  }

  /** Trailing white space removed. */
  function TrimEnd(s: string): string {
    if |s| > 0 && IsSpace(s[|s| - 1]) then TrimEnd(s[..|s| - 1]) else s
  }

  /** `TrimEnd` keeps a prefix that does not end with white space, and drops only white space. */
  lemma {:induction false} TrimEndFacts(s: string)
    ensures var r := TrimEnd(s);
      && |r| <= |s| && r == s[..|r|]
      && (r == [] || !IsSpace(r[|r| - 1]))
      && AllSpace(s[|r|..])
  {
    if |s| > 0 && IsSpace(s[|s| - 1]) {
      var r := TrimEnd(s[..|s| - 1]);
      TrimEndFacts(s[..|s| - 1]);
      assert s[|r|..] == s[..|s| - 1][|r|..] + [s[|s| - 1]];
    }
  }

  /** `String.prototype.trim`: white space removed from both ends. */
  function Trim(s: string): (r: string)
    ensures Tight(r)
  {
    TrimStartFacts(s);
    TrimEndFacts(TrimStart(s));
    TrimEnd(TrimStart(s))
  }

  /** What trim removes is white space on either side: the result is a slice of the input with only white space around it. */
  lemma TrimCut(s: string)
    ensures exists a :: CutAt(s, Trim(s), a)
  {
    var t := TrimStart(s);
    var r := TrimEnd(t);
    var a := |s| - |t|;
    TrimStartFacts(s);
    TrimEndFacts(t);
    assert s[a..a + |r|] == t[..|r|];
    assert s[a + |r|..] == t[|r|..];
    assert Trim(s) == r;
    assert CutAt(s, r, a);
  }

  /** `r` sits at offset `a` of `s` with nothing but white space around it. */
  ghost predicate CutAt(s: string, r: string, a: int) {
    0 <= a <= |s| - |r| && s[a..a + |r|] == r && AllSpace(s[..a]) && AllSpace(s[a + |r|..])
  }

  /** Trimming a tight string padded with white space gives back exactly that string. */
  lemma {:induction false} TrimPadded(p: string, x: string, q: string)
    requires AllSpace(p) && AllSpace(q) && Tight(x)
    ensures Trim(p + x + q) == x
  {
    if x == [] {
      assert p + x + q == (p + q) + [];
      TrimStartPadded(p + q, []);
    } else {
      assert p + x + q == p + (x + q);
      TrimStartPadded(p, x + q);
      TrimEndPadded(x, q);
    }
  }

  lemma {:induction false} TrimStartPadded(p: string, y: string)
    requires AllSpace(p)
    requires y == [] || !IsSpace(y[0])
    ensures TrimStart(p + y) == y
    decreases |p|
  {
    if p != [] {
      assert (p + y)[1..] == p[1..] + y;
      TrimStartPadded(p[1..], y);
    } else {
      assert p + y == y;
    }
  }

  /** White space in front of a string is skipped: trimming the start of `p + y` equals trimming the start of `y`. */
  lemma {:induction false} TrimStartSkips(p: string, y: string)
    requires AllSpace(p)
    ensures TrimStart(p + y) == TrimStart(y)
    decreases |p|
  {
    if p != [] {
      assert (p + y)[1..] == p[1..] + y;
      TrimStartSkips(p[1..], y);
    } else {
      assert p + y == y;
    }
  }

  lemma {:induction false} TrimEndPadded(x: string, q: string)
    requires AllSpace(q)
    requires x == [] || !IsSpace(x[|x| - 1])
    ensures TrimEnd(x + q) == x
    decreases |q|
  {
    if q != [] {
      assert (x + q)[..|x + q| - 1] == x + q[..|q| - 1];
      TrimEndPadded(x, q[..|q| - 1]);
    } else {
      assert x + q == x;
    }
  }

  /** A string without white space at either end trims to itself. */
  lemma TrimTight(s: string)
    requires Tight(s)
    ensures Trim(s) == s
  {
    TrimPadded([], s, []);
    assert [] + s + [] == s;
  }

  /** Trimming twice is trimming once. */
  lemma TrimIdempotent(s: string)
    ensures Trim(Trim(s)) == Trim(s)
  {
    TrimTight(Trim(s));
  }

  /** The trimmed text is empty exactly when the text is all white space (what makes a JavaScript string falsy after trim). */
  lemma TrimEmptyIff(s: string)
    ensures Trim(s) == [] <==> AllSpace(s)
  {
    TrimCut(s);
    if AllSpace(s) {
      TrimPadded(s, [], []);
      assert s + [] + [] == s;
    }
  }
}

=== FILE: titleid.dfy ===
/**
 * Catalog-ID extraction from a search-result link, as done by
 * `href.match(/\/title\/(tt\d+)\/\?/)[1]`: the leftmost occurrence of
 * `/title/tt`, one or more ASCII digits, then `/?`; the capture is `tt` and
 * the digits. A link without such an occurrence makes `match` return null.
 */
module TitleId {
  import opened Wrappers
  import Text

  /** The path segment in front of the captured ID. */
  const Prefix: string := "/title/"

  /** The literal part in front of the digit run: the prefix and the ID's own `tt`. */
  const Lead: string := "/title/tt"

  /** The literal part after the digit run. */
  const Tail: string := "/?"

  predicate AllDigits(s: string) {
    forall k :: 0 <= k < |s| ==> Text.IsDigit(s[k])
  }

  /** A catalog identifier as the capture group admits it: `tt` and at least one digit. */
  predicate IsCatalogId(id: string) {
    |id| >= 3 && id[..2] == "tt" && AllDigits(id[2..])
  }

  /** `w` occurs in `s` at offset `i`. */
  ghost predicate OccursAt(s: string, w: string, i: int) {
    0 <= i && i + |w| <= |s| && s[i..i + |w|] == w
  }

  /** The whole pattern matches `s` at offset `i`, with the digit run ending at `e`. */
  ghost predicate MatchesWith(s: string, i: int, e: int) {
    && 0 <= i && i + |Lead| < e && e + |Tail| <= |s|
    && s[i..i + |Lead|] == Lead
    && AllDigits(s[i + |Lead|..e])
    && s[e..e + |Tail|] == Tail
  }

  /** The match at `i`, ending its digit run at `e`, is the leftmost one: the one `match` reports. */
  ghost predicate LeftmostMatch(s: string, i: int, e: int) {
    MatchesWith(s, i, e) && forall i', e' :: 0 <= i' < i ==> !MatchesWith(s, i', e')
  }

  /** The end of the longest run of digits that starts at `j`. */
  function DigitsEnd(s: string, j: nat): (e: nat)
    requires j <= |s|
    ensures j <= e <= |s|
    ensures AllDigits(s[j..e])
    ensures e == |s| || !Text.IsDigit(s[e])
    decreases |s| - j
  {
    if j < |s| && Text.IsDigit(s[j]) then
      var e := DigitsEnd(s, j + 1);
      assert s[j..e] == [s[j]] + s[j + 1..e];
      e
    else j
  }

  /** Whether the pattern matches at `i`, and if so where its digit run ends (the greedy `\d+` has only one way to succeed). */
  function MatchAt(s: string, i: nat): (r: Option<nat>)
    ensures r.Some? ==> MatchesWith(s, i, r.value)
    ensures forall e :: MatchesWith(s, i, e) ==> r == Some(e)
  {
    if i + |Lead| < |s| && s[i..i + |Lead|] == Lead then
      var e := DigitsEnd(s, i + |Lead|);
      assert forall e' :: MatchesWith(s, i, e') ==> e' == e by {
        forall e' | MatchesWith(s, i, e') ensures e' == e {
          assert s[e'] == Tail[0];
          DigitsEndUnique(s, i + |Lead|, e');
        }
      }
      if i + |Lead| < e && e + |Tail| <= |s| && s[e..e + |Tail|] == Tail then
        Some(e)
      else
        None
    else
      None
  }

  /** Any maximal digit run starting at `j` is the one `DigitsEnd` finds. */
  lemma DigitsEndUnique(s: string, j: nat, e: nat)
    requires j <= e <= |s|
    requires AllDigits(s[j..e])
    requires e == |s| || !Text.IsDigit(s[e])
    ensures e == DigitsEnd(s, j)
  {
  }

  /** The leftmost match at or after `from`, as JavaScript's regular-expression search finds it. */
  function FirstMatch(s: string, from: nat): (r: Option<(nat, nat)>)
    ensures r.Some? ==> from <= r.value.0 && MatchesWith(s, r.value.0, r.value.1)
    ensures r.Some? ==> forall i, e :: from <= i < r.value.0 ==> !MatchesWith(s, i, e)
    ensures r.None? ==> forall i, e :: from <= i ==> !MatchesWith(s, i, e)
    decreases |s| - from
  {
    if from >= |s| then
      None
    else
      match MatchAt(s, from)
      case Some(e) => Some((from, e))
      case None => FirstMatch(s, from + 1)
  }

  /** The captured catalog ID of a link, or `None` where `match` yields null. */
  function ExtractId(href: string): (r: Option<string>)
    ensures r.Some? <==> exists i, e :: MatchesWith(href, i, e)
    ensures r.Some? ==> IsCatalogId(r.value)
    ensures r.Some? ==> exists i :: OccursAt(href, Prefix + r.value + Tail, i)
    ensures r.Some? ==> exists i, e :: LeftmostMatch(href, i, e) && r.value == href[i + |Prefix|..e]
  {
    match FirstMatch(href, 0)
    case None => None
    case Some((i, e)) =>
      assert LeftmostMatch(href, i, e);
      CaptureShape(href, i, e);
      Some(href[i + |Prefix|..e])
  }

  /** The capture of a match at `i` is a catalog ID, and `/title/<capture>/?` sits at `i`. */
  lemma CaptureShape(href: string, i: int, e: int)
    requires MatchesWith(href, i, e)
    ensures IsCatalogId(href[i + |Prefix|..e])
    ensures OccursAt(href, Prefix + href[i + |Prefix|..e] + Tail, i)
  {
    var id := href[i + |Prefix|..e];
    assert href[i + |Prefix|..i + |Lead|] == href[i..i + |Lead|][|Prefix|..|Lead|];
    assert id[..2] == href[i + |Prefix|..i + |Lead|];
    assert id[2..] == href[i + |Lead|..e];
    assert href[i..i + |Prefix| + |id| + |Tail|] == href[i..i + |Prefix|] + id + href[e..e + |Tail|];
    assert href[i..i + |Prefix|] == href[i..i + |Lead|][..|Prefix|];
  }

  /** A result link `/title/<id>/?<rest>`, the shape the search page uses, yields its own ID back. */
  lemma {:induction false} ExtractIdOfLink(id: string, rest: string)
    requires IsCatalogId(id)
    ensures ExtractId(Prefix + id + Tail + rest) == Some(id)
  {
    var s := Prefix + id + Tail + rest;
    var e := |id| + |Prefix|;
    assert s[0..|Lead|] == Lead;
    assert s[|Lead|..e] == id[2..];
    assert s[e..e + |Tail|] == Tail;
    assert MatchesWith(s, 0, e);
    assert FirstMatch(s, 0) == Some((0, e));
    assert s[|Prefix|..e] == id by {
      var head := Prefix + id;
      assert s == head + (Tail + rest);
      assert s[..e] == head;
      assert s[|Prefix|..e] == head[|Prefix|..];
    }
  }

  /** A link missing the `?` after the ID, such as `/title/tt123/`, has no match. */
  lemma NoMatchWithoutQuestionMark()
    ensures ExtractId("/title/tt123/") == None
  {
  }
}

=== FILE: wrappers.dfy ===
/** Failure-compatible Option and Result types used throughout the model. */
module Wrappers {

  /** A value that may be absent (JavaScript's `undefined`, `null` or `false` sentinel). */
  datatype Option<+T> = None | Some(value: T) {
    predicate IsFailure() {
      None?
    }

    function PropagateFailure<U>(): Option<U>
      requires None?
    {
      None
    }

    function Extract(): T
      requires Some?
    {
      value
    }
  }

  /** Either a computed value or the error the source would have thrown. */
  datatype Result<+R, +E> = Success(value: R) | Failure(error: E) {
    predicate IsFailure() {
      Failure?
    }

    function PropagateFailure<U>(): Result<U, E>
      requires Failure?
    {
      Failure(error)
    }

    function Extract(): R
      requires Success?
    {
      value
    }
  }
}
